=== FILE: README.md ===
# cv-builder, modelled in Dafny

cv-builder lets a signed-in user claim a username and edit a CV. The CV
has a header, contact links, experience and education entries, and
skills. The user can publish it at `/@username`. This project models the
decisions behind that as pure Dafny functions over immutable datatypes,
and proves properties of them:

- **Composer**: which sections show for a section order, and where the
  separators go. Both the editor preview (a visible flag and a "some later
  section is visible" flag per token) and the public view (filter, then
  separators between survivors) are modelled, and proved to draw the same
  stream.
- **Reorder**: the drag-end handlers of both previews. `arrayMove` is
  modelled as remove-then-insert.
- **Editor**: the editor draft. This covers seeding it from a profile,
  adding, updating and removing entries and skills, and taking over
  reordered lists.
- **MonthInput**: the `YYYY-MM` month picker's `parse` and `toYMM`.
- **ProfileStore**: the Convex `profiles` table as a store. `createProfile`
  and `updateProfile` are atomic transitions; the other three functions
  are queries.
- **ClaimWorkflow**: the username-claim form as a state machine. The
  reactive availability query becomes an explicit "result arrived" event.
- **Contact**: the contact links.
- **PublicPage**: the server-rendered page. This covers escaping, the name
  split, the 404 gate and the fixed section order. Every page function
  takes the escape table as a parameter. `AsWritten` is the table in
  `convex/router.ts`, which leaves `<` and `>` raw, so it is the page the
  program serves. `Corrected` is the table that escapes them (see
  Findings).
- **Routing**: the `/@x` to `/u/x` middleware rewrite, and the app's path
  and query matching.

Supporting modules:

- `Wrappers`: `Option` and `Result`.
- `Text`: the JavaScript string operations used (`trim`, `split`, `join`,
  `startsWith`, decimal digits).
- `Seqs`: `filter` and `indexOf`.
- `Profiles`: the profile document.

Absent optional fields and JavaScript truthiness are explicit: `HasText(o)`
means present and non-empty. The username, user id and entry ids are
plain strings. A store row's position stands for its document id.

## Model

| member | source | states |
|---|---|---|
| Composer.VisibilityRules | components/profile-preview.tsx:379-403 | The header is always visible. Contact is visible iff some contact field has text. Each list section is visible iff its list is non-empty. No other token (such as `bio`) is ever visible. |
| Composer.PreviewOrder | components/profile-preview.tsx:81-88 | The preview uses the `sectionsOrder` prop, else the profile's order, else the five-token default. An explicit empty order is kept. |
| Composer.PublicOrder | components/profile-public-view.tsx:47-53 | The public view uses the profile's order, else the five-token default. |
| Composer.AnyVisible | components/profile-preview.tsx:406-407 | `order.slice(idx + 1).some(isSectionVisible)` holds iff some token in the slice is visible. |
| Composer.PreviewSlots | components/profile-preview.tsx:405-414 | There is one slot per token. A slot draws iff its token is visible. A separator follows a slot iff the token is visible and some later token is visible. |
| Composer.Survivors | components/profile-public-view.tsx:244-270 | A token survives the filter iff it is in the order and visible. |
| Composer.SurvivorsKeepOrderAndCount | components/profile-public-view.tsx:244-270 | The survivors are a subsequence of the order, and each visible token keeps its multiplicity in the order. |
| Composer.SurvivorsCons | components/profile-public-view.tsx:245-270 | The first token of the order survives iff it is visible, ahead of the survivors of the rest. |
| Composer.SurvivorsOfFive | components/profile-public-view.tsx:245-270 | Over five tokens, each token survives in its place iff it is visible. |
| Composer.Interleave | components/profile-public-view.tsx:271-276 | With n survivors the stream has 2n-1 pieces (0 when nothing survives). |
| Composer.InterleaveCons | components/profile-public-view.tsx:271-276 | A survivor is followed by a separator iff more survivors come after it. |
| Composer.InterleaveShape | components/profile-public-view.tsx:271-276 | Survivor k is drawn at position 2k. A separator sits between each pair of consecutive survivors. |
| Composer.SeparatorLayout | components/profile-public-view.tsx:271-276 | The stream neither starts nor ends with a separator, and never has two separators in a row. The number of separators is the number of survivors minus one. |
| Composer.AnyVisibleIffSurvivors | components/profile-preview.tsx:406-407 | Some later token is visible iff the filtered rest is non-empty. |
| Composer.PreviewSlotAt | components/profile-preview.tsx:405-414 | The preview's slot at a position draws iff its token is visible, and adds a separator iff some later token is visible too. |
| Composer.SlotThenRest | components/profile-preview.tsx:405-414 | One preview slot followed by the public stream of the rest of the order is the public stream with that token in front. |
| Composer.RenderSlotsFrom | components/profile-preview.tsx:378-418 | From any position on, the preview's slots draw what the public view draws for the rest of the order. |
| Composer.PreviewMatchesPublic | components/profile-public-view.tsx:244-276 | The editor preview and the public view draw the same stream of sections and separators for every profile and every order. |
| Composer.HeaderAlwaysUnknownNever | components/profile-public-view.tsx:246-269 | `header` survives whenever it is in the order. An unknown token never survives. |
| Composer.SurvivorsAppend | components/profile-public-view.tsx:245-270 | Filtering distributes over concatenation of orders. |
| Composer.InvisibleTokenIsInert | components/profile-preview.tsx:378-418 | Removing an invisible token from the order does not change what the preview draws. |
| Composer.SurvivorsOfInvisible | components/profile-public-view.tsx:269 | An invisible token alone leaves nothing. |
| Composer.BareProfileShowsOnlyHeader | components/profile-public-view.tsx:244-276 | With no contact and no entries or skills, only header tokens survive. For the default order, the page is the header alone. |
| Composer.FormatDate | components/profile-public-view.tsx:39-44 | The empty date formats as the empty string. Any other date goes to the locale formatter. |
| Composer.EndLabel | components/profile-public-view.tsx:172-173 | A current entry ends "Present". A non-current entry without an end date gets an empty label. |
| Composer.CurrentIgnoresEndDate | components/profile-public-view.tsx:202-203 | For a current entry, the stored end date never affects the label. |
| Reorder.RemoveAt | src/components/profile-preview.tsx:321-323 | Removing position i shifts the later items down by one and keeps the earlier ones. |
| Reorder.InsertAt | src/components/profile-preview.tsx:321-323 | Inserting at i puts the item at i, keeps the earlier items and shifts the later ones up by one. |
| Reorder.ArrayMove | src/components/profile-preview.tsx:321-323 | The moved item lands at `to`. With it removed, the result is the input with `from` removed. The length is kept. |
| Reorder.InsertWhereRemoved | src/components/profile-preview.tsx:321-323 | Putting an item back where it was taken out restores the list. |
| Reorder.ArrayMoveIsPermutation | src/components/profile-preview.tsx:309-315 | A move keeps every item with its multiplicity. |
| Reorder.ArrayMoveShifts | src/components/profile-preview.tsx:317-325 | Items between `from` and `to` shift by one towards `from`. All other items keep their position. |
| Reorder.ArrayMoveInverse | src/components/profile-preview.tsx:317-325 | Moving from i to j and then from j back to i restores the order. |
| Reorder.MoveToFrontExample | src/components/profile-preview.tsx:336-340 | Moving the third of ["Go", "Rust", "TS"] to the front gives ["TS", "Go", "Rust"]. |
| Reorder.KeyTypeOfKey | src/components/profile-preview.tsx:305-307 | The type of `kind:name` is `kind` when the kind has no colon, whatever the name holds. |
| Reorder.Keys | src/components/profile-preview.tsx:87-90 | The identity keys are `kind:` followed by each name, in list order. |
| Reorder.EntryIds | src/components/profile-preview.tsx:88-89 | The entry keys are built from the entry ids, in list order. |
| Reorder.IndexOfKey | src/components/profile-preview.tsx:310-311 | Looking up a prefixed key finds the first position of the bare name. |
| Reorder.MoveByKey | src/components/profile-preview.tsx:317-325 | A move happens iff both keys are found. It moves the item at the dragged key's first index to the target's first index, and the result is a permutation of the same length. |
| Reorder.NestedDragEnd | src/components/profile-preview.tsx:304-342 | A callback fires iff the drag has a target of the same key type, the parent passed that type's callback, and both keys are found among that type's keys. Its list is the old one with the item at the dragged key's first index moved to the target's first index. |
| Reorder.SectionDragEnd | components/profile-preview.tsx:358-372 | Only a section drag onto a section, with the callback present, fires. The new order is a permutation of the old one. |
| Reorder.SectionHandlersAgree | components/profile-preview.tsx:358-372 | Both previews react identically to a section drag. The sections-only preview ignores every other drag. |
| Reorder.SectionDragMovesToken | src/components/profile-preview.tsx:309-315 | Dragging `section:a` onto `section:b` moves the first `a` to the first `b`'s position. |
| Reorder.KeyedDrag | src/components/profile-preview.tsx:305-311 | Keys built from two present names of one type have that type, and are found at the names' first positions. |
| Reorder.ExperienceDragMovesEntry | src/components/profile-preview.tsx:317-325 | Dragging entry a onto entry b fires the experience callback with the first a moved to the first b's position. |
| Reorder.EducationDragMovesEntry | src/components/profile-preview.tsx:326-334 | Dragging entry a onto entry b fires the education callback with the first a moved to the first b's position. |
| Reorder.SkillDragMovesSkill | src/components/profile-preview.tsx:335-341 | Dragging skill a onto skill b puts a at b's position, and the other skills keep their relative order. |
| Editor.Seed | src/components/profile-editor.tsx:13-35 | The draft takes over the profile's name, lists and public flag. Each of the eight optional fields is the profile's text, or empty text when it is absent, so a contact field is empty iff the profile has no text there. The order is the stored order, else the default with `bio`. |
| Editor.Open | src/components/profile-editor.tsx:13-43 | A freshly opened editor has the seeded draft, an empty skill input and no pending layout change. |
| Editor.PreviewProfile | src/components/profile-editor.tsx:654 | The preview is handed the stored row's id and username with every draft field laid over it: an emptied field reads as empty text, and the contact section shows iff some draft contact field is non-empty. |
| Editor.BioTokenIsInert | components/profile-editor.tsx:105-112 | The legacy `bio` token in the editor's default order draws nothing: the preview is as for the five-token default. |
| Editor.OpenedPreviewMatchesPublicView | components/profile-editor.tsx:641-643 | For a profile without its own order, the just-opened editor's preview, whose order defaults to the list at components/profile-editor.tsx:105-112, draws the same stream as the profile's public view. |
| Editor.SameVisibilitySameSurvivors | components/profile-public-view.tsx:244-270 | Two profiles that agree on each token's visibility keep the same survivors. |
| Editor.ApplyEdit | src/components/profile-editor.tsx:79-80 | `{ ...e, [field]: value }` sets the addressed field and keeps the id and every other field. |
| Editor.FieldsDetermineEntry | src/components/profile-editor.tsx:79-80 | Two entries with the same id and the same field values are equal. |
| Editor.Blank | src/components/profile-editor.tsx:56-64 | A new entry has the given id, empty texts and `current` false. |
| Editor.UpdateById | src/components/profile-editor.tsx:76-81 | Length and ids are kept. Entries with another id are untouched. In matching entries only the addressed field changes. |
| Editor.RemoveById | src/components/profile-editor.tsx:84-89 | Exactly the entries with that id are gone. The rest keep their order and multiplicity. |
| Editor.AddExperience | src/components/profile-editor.tsx:55-69 | One blank entry is appended after the unchanged old list. Nothing else in the state changes. |
| Editor.UpdateExperience | src/components/profile-editor.tsx:71-82 | Only the experience list changes, as by `UpdateById`. |
| Editor.RemoveExperience | src/components/profile-editor.tsx:84-89 | Only the experience list changes, as by `RemoveById`. |
| Editor.AddEducation | src/components/profile-editor.tsx:91-105 | One blank entry is appended after the unchanged old list. Nothing else in the state changes. |
| Editor.UpdateEducation | src/components/profile-editor.tsx:107-114 | Only the education list changes, as by `UpdateById`. |
| Editor.RemoveEducation | src/components/profile-editor.tsx:116-121 | Only the education list changes, as by `RemoveById`. |
| Editor.AddSkill | src/components/profile-editor.tsx:123-131 | The trimmed input is appended and the input cleared iff it is non-empty and not yet a skill; otherwise nothing changes. A duplicate-free list stays duplicate-free, and no other skill appears. |
| Editor.RemoveSkill | src/components/profile-editor.tsx:133-138 | Every copy of the skill is gone. The others keep their order and multiplicity. Nothing else changes. |
| Editor.RemoveSkillKeepsNoDuplicates | components/profile-editor.tsx:211-216 | Removing a skill keeps the list duplicate-free. |
| Editor.FilterKeepsNoDuplicates | components/profile-editor.tsx:211-216 | Filtering a duplicate-free list leaves it duplicate-free. |
| Editor.ApplyReorder | src/components/profile-editor.tsx:656-671 | Each callback replaces only its own draft field and marks the layout dirty. |
| Editor.DragInEditorPermutes | src/components/profile-editor.tsx:653-673 | A drag in this editor's preview fires iff both keys have one type and are found among that type's keys. Every list it changes is a permutation of the old one. |
| Editor.DragInSectionsEditor | components/profile-editor.tsx:641-659 | A drag in this editor's sections-only preview fires iff both keys are section keys found in the order. It replaces the order, and nothing else, by a permutation. |
| MonthInput.NumberOf | components/profile-editor.tsx:38-40 | `Number` yields a value iff the trimmed text is all digits. Blank text reads as 0. |
| MonthInput.NumberOfNatToString | components/profile-editor.tsx:38-40 | `Number(String(n))` is n. |
| MonthInput.MakeDate | components/profile-editor.tsx:42 | The result is a calendar month. Years 0 to 99 mean 1900 to 1999, and month overflow carries into the year. |
| MonthInput.Parse | components/profile-editor.tsx:36-43 | The empty string, or a value without `-`, gives no date. Every date it gives has a month in range and a year from 100 on. |
| MonthInput.ReadParts | components/profile-editor.tsx:37-42 | A value with no month part gives no date. Every result is a valid month. |
| MonthInput.FromNumbers | components/profile-editor.tsx:41-42 | A zero year or month gives no date. Any other pair gives a valid month from year 100 on. |
| MonthInput.ReadTwoNumbers | components/profile-editor.tsx:41-42 | Two parts that `Number` reads go through the zero check and the `Date` constructor. |
| MonthInput.ParseDashed | components/profile-editor.tsx:38 | A value with one dash is read from its two sides. |
| MonthInput.Pad2 | components/profile-editor.tsx:46 | The padded month has two digits and reads back as the month. |
| MonthInput.NumberOfPad2 | components/profile-editor.tsx:46 | `Number` reads the padded month back. |
| MonthInput.ToYMM | components/profile-editor.tsx:36-48 | For a non-negative year, the written value reads back from the year's digits and the padded month. From year 100 on, parsing it gives the same month back. |
| MonthInput.ReadYearAndMonth | components/profile-editor.tsx:36-48 | The two halves `toYMM` writes read back as the year and month. |
| MonthInput.ReadNumbers | components/profile-editor.tsx:41-42 | A year from 100 on and a month from 1 to 12 give that month. |
| MonthInput.MakeDateInRange | components/profile-editor.tsx:42 | From year 100 on, an in-range month index is taken as it is. |
| MonthInput.NormaliseIdempotent | components/profile-editor.tsx:74-75 | Storing what the picker shows is stable: one more write and read changes nothing. |
| MonthInput.ParseDecimal | components/profile-editor.tsx:36-43 | A decimal year and month give `new Date(year, month - 1, 1)` unless either is zero. A month past 12 carries over. |
| MonthInput.MakeDateTwoDigit | components/profile-editor.tsx:42 | A year from 0 to 99 and an in-range month index give that month of 1900 plus the year. |
| MonthInput.TwoDigitYears | components/profile-editor.tsx:42 | Years 1 to 99 read as 1901 to 1999. |
| ProfileStore.Message | convex/profiles.ts:54-143 | Each handler error has its non-empty message. |
| ProfileStore.Lookup | convex/profiles.ts:59-61 | `.unique()` gives null iff no row matches. It gives a row iff exactly one matches. It throws only when two rows match. |
| ProfileStore.ValidLookupIsUnique | convex/profiles.ts:57-75 | In a store with unique usernames and owners, no lookup throws. |
| ProfileStore.NewProfile | convex/profiles.ts:77-93 | The inserted row has the caller's id, and every argument (username, name and the eight optional fields) verbatim, empty lists, no order, and is not public. |
| ProfileStore.CreateProfile | convex/profiles.ts:38-97 | No user fails with "Not authenticated". Success iff the username is free and the caller owns no profile, and then exactly one row is appended. A taken username is reported before an existing profile. |
| ProfileStore.CreatePreservesValid | convex/profiles.ts:57-93 | A successful create keeps usernames unique and one profile per user. |
| ProfileStore.Patch | convex/profiles.ts:146-160 | Every listed field is overwritten. Owner, username and section order are kept. |
| ProfileStore.UpdateProfile | convex/profiles.ts:99-164 | No user fails with "Not authenticated", and no own profile fails with "Profile not found". On success only the caller's row changes, by the patch. |
| ProfileStore.UpdatePreservesValid | convex/profiles.ts:132-160 | An update keeps both uniqueness invariants. |
| ProfileStore.GetMyProfile | convex/profiles.ts:5-20 | No user gives null. Otherwise null iff the user owns no row, and a result is the user's own row. |
| ProfileStore.GetProfileByUsername | convex/profiles.ts:22-36 | A result is public and has the asked username. In a valid store, null iff no public row has that username. |
| ProfileStore.CheckUsernameAvailable | convex/profiles.ts:166-176 | True iff no row has exactly that username. It never throws in a valid store. |
| ProfileStore.EmptyStoreValid | convex/schema.ts:1-40 | The empty table satisfies the invariants. |
| ProfileStore.AvailableThenCreateSucceeds | convex/profiles.ts:57-93 | If the availability check says free and the caller owns nothing, creating succeeds in the same state. |
| ProfileStore.SecondClaimIsRefused | convex/profiles.ts:57-65 | After one create, a second create of the same username by anyone fails with "Username already taken". |
| ProfileStore.NewProfileIsPrivate | convex/profiles.ts:22-36 | Right after creation, the public lookup does not find the new profile. |
| ClaimWorkflow.Initial | src/components/profile-setup.tsx:7-23 | The form starts blank, not checking, with no answer. |
| ClaimWorkflow.QueryArgs | src/components/profile-setup.tsx:26-29 | The query is issued iff the username is at least 3 UTF-16 code units long (JavaScript `length`), and it asks about that username. |
| ClaimWorkflow.EditUsername | src/components/profile-setup.tsx:31-36 | An edit to 3 or more UTF-16 code units starts a check; a shorter one leaves checking as it was. No edit changes the stored answer. |
| ClaimWorkflow.EditName | src/components/profile-setup.tsx:130 | Typing a name changes only the name. |
| ClaimWorkflow.ResultArrived | src/components/profile-setup.tsx:39-44 | An arriving result is stored and the check is over. |
| ClaimWorkflow.CreateArgsOf | src/components/profile-setup.tsx:60 | `createProfile` receives the username and name, and each of the eight optional form fields as that text, the empty ones as empty strings. |
| ClaimWorkflow.SubmitDisabled | src/components/profile-setup.tsx:182 | The button is disabled exactly when submitting would be refused; an enabled button sends the form as it stands. |
| ClaimWorkflow.Submit | src/components/profile-setup.tsx:46-67 | A missing username or name is refused first. Then any answer but `true` is refused. The form is sent iff both fields are filled and the answer is `true`. |
| ClaimWorkflow.DisabledIffRefused | src/components/profile-setup.tsx:182 | The button is disabled exactly when submitting would be refused. |
| ClaimWorkflow.StatusMessage | src/components/profile-setup.tsx:111-117 | A message shows iff the username is 3 or more UTF-16 code units long and no check is running. It reads "available" iff the answer is `true`. |
| ClaimWorkflow.IndicatorOf | components/profile-setup.tsx:100-110 | No icon below 3 UTF-16 code units, a spinner while checking, otherwise tick or cross matching the message. |
| ClaimWorkflow.StaleAnswerPassesGate | components/profile-setup.tsx:35-61 | As written: after "alice" is reported free, shortening it to "al" (never queried) and giving a name sends a create for "al". |
| ClaimWorkflow.TrackedInitial | components/profile-setup.tsx:11-27 | The corrected form starts consistent, with no answer. |
| ClaimWorkflow.TrackedEditUsername | components/profile-setup.tsx:35-40 | The edit rules as written, with lengths in UTF-16 code units; consistency is kept. |
| Text.Utf16Length | src/components/profile-setup.tsx:28 | JavaScript's `length` counts one code unit per character of the Basic Multilingual Plane and two for any other: between the character count and twice it, and equal to it for BMP-only text. |
| ClaimWorkflow.AstralUsernameIsQueried | src/components/profile-setup.tsx:26-29 | A username of one letter and one emoji has two characters but three code units, and it is queried. |
| ClaimWorkflow.TrackedEditName | components/profile-setup.tsx:129 | Typing a name changes only the name; consistency is kept. |
| ClaimWorkflow.TrackedResultArrived | components/profile-setup.tsx:43-48 | An answer is taken only for the username being queried and remembers it. A late answer for another username is dropped. |
| ClaimWorkflow.TrackedSubmit | components/profile-setup.tsx:53-61 | The same messages in the same order, but a create is sent only with a `true` answer about the username being submitted. |
| ClaimWorkflow.TrackedGateSound | components/profile-setup.tsx:58-61 | Whatever the corrected gate sends was queried and reported free under exactly that name. |
| ClaimWorkflow.TrackedRefusesStaleAnswer | components/profile-setup.tsx:58-61 | The stale-answer sequence is refused by the corrected gate. |
| ClaimWorkflow.GatesAgreeOnFreshAnswer | components/profile-setup.tsx:58-61 | When the answer belongs to the current username, both gates decide alike. |
| ClaimWorkflow.FreshAnswerCreates | convex/profiles.ts:166-176 | A fresh `true` answer from the store, then a submit, leads to a create the store accepts. |
| Contact.WebsiteHref | components/profile-preview.tsx:207-211 | The href starts with `http`. A value already starting with `http` is kept; any other value gets `https://` in front. |
| Contact.WebsiteHrefIdempotent | components/profile-preview.tsx:207-211 | Linking an already linked website changes nothing. |
| Contact.HandleHref | components/profile-preview.tsx:223-247 | The href is the fixed base, followed by exactly the handle. |
| Contact.MakeLink | src/components/profile-preview.tsx:150-205 | An email links to `mailto:` and the address and shows the address. A website links as `WebsiteHref` says and shows itself. GitHub, LinkedIn and Twitter link to their base followed by the handle and show "GitHub: ", "LinkedIn: " or "Twitter: @" before it. |
| Contact.MakeLinkRecoversValue | src/components/profile-preview.tsx:150-205 | The field can be read back from the link it makes, so two values of one kind never give the same link. |
| Contact.PresentKinds | components/profile-public-view.tsx:78-85 | A kind is listed iff its field has text, in the block's order. The list is empty iff the contact section is hidden. |
| Contact.PresentKindsOfSameFields | components/profile-public-view.tsx:78-85 | Which links appear depends on the contact fields alone. |
| Contact.ContactLinks | src/components/profile-preview.tsx:135-205 | One link per field with text, in the order email, website, GitHub, LinkedIn, Twitter. Empty exactly when contact is hidden. |
| Contact.LinkFor | src/components/profile-preview.tsx:150-205 | The link for a field is `MakeLink` of the field's text (empty when absent), and a field with text can be read back from it. |
| Contact.LinksFor | src/components/profile-preview.tsx:148-208 | One link per kind, position by position. |
| Contact.ContactLinksShowPresentFields | components/profile-preview.tsx:194-255 | Every shown link has a field with text behind it, is built from that field and is well formed. |
| PublicPage.Entity | convex/router.ts:305-311 | Each special character maps to an entity free of `<>"'`. Other characters map to themselves. |
| PublicPage.EscapeHtml | convex/router.ts:304-313 | Corrected escape: the output has no raw `<`, `>`, `"` or `'`, and text without special characters is unchanged. |
| PublicPage.EntityAsWritten | convex/router.ts:305-311 | As written, `<` and `>` map to themselves. Every other character maps as in the corrected table. |
| PublicPage.EscapeHtmlAsWritten | convex/router.ts:304-313 | As written, the output has no raw `"` or `'`. It is the identity on text free of `&"'`. |
| PublicPage.EscapeHtmlAsWrittenAppend | convex/router.ts:312 | The as-written escape distributes over concatenation. |
| PublicPage.AsWrittenLetsTagsThrough | convex/router.ts:307-308 | As written, `<script>` passes through unchanged. |
| PublicPage.EscapesAgreeWithoutTags | convex/router.ts:304-313 | On text without `<` or `>`, the as-written and corrected escapes agree. |
| PublicPage.EscapeHtmlCons | convex/router.ts:312 | Escaping a text escapes its first character, then the rest. |
| PublicPage.EscapeHtmlAppend | convex/router.ts:312 | The corrected escape distributes over concatenation. |
| PublicPage.HeaderLine | convex/router.ts:225-227 | A title, location or bio line is shown iff the field is present and non-empty, and then holds the escaped text. |
| PublicPage.Escape | convex/router.ts:304-313 | Under either table the output has no raw `"` or `'`, and text without special characters is unchanged. Under the corrected table it has no raw `<` or `>` either. |
| PublicPage.EscapeCons | convex/router.ts:312 | Under either table, escaping a text escapes its first character, then the rest. |
| PublicPage.UnescapeEntity | convex/router.ts:305-311 | Each escaped character reads back as itself. |
| PublicPage.UnescapeEscape | convex/router.ts:304-313 | Escaping loses nothing: unescaping gives the original back. |
| PublicPage.EscapeKeepsHttpPrefix | convex/router.ts:128 | Under either table, the escaped website starts with `http` iff the raw one does. |
| PublicPage.PlainPrefixSurvives | convex/router.ts:128 | Under either table, a prefix free of special characters survives escaping. |
| PublicPage.PlainPrefixIsLiteral | convex/router.ts:128 | Under either table, an escaped text starting with a word free of `&` came from text starting with it. |
| PublicPage.FirstName | convex/router.ts:177 | The first name contains no space. |
| PublicPage.LastName | convex/router.ts:178 | The last name is empty for a name without a space, and shorter than any non-empty name. |
| PublicPage.NameRejoins | convex/router.ts:177-178 | With a space in the name, first name, space and last name give the name back. Without one, the first name is the whole name and the last name is empty. |
| PublicPage.ServerLink | convex/router.ts:119-157 | The server's link for a field is the preview's link for the value escaped with the page's table, even though it tests `http` on the raw value. |
| PublicPage.ServerLinksFor | convex/router.ts:119-157 | One server link per kind, position by position, escaped with the page's table. |
| PublicPage.ServerContactLinks | convex/router.ts:114-160 | The contact block is empty iff no contact field has text. Otherwise it has the preview's links for the values escaped with the page's table, in the same order. |
| PublicPage.ViewEntry | convex/router.ts:63-73 | The start is the formatted start date. The end is "Present" for a current entry and otherwise the formatted end date, empty when unset. A description is shown iff it has text. Heading, organisation and description are escaped with the page's table; the dates are interpolated unescaped, as the source does. |
| PublicPage.ViewEntries | convex/router.ts:58-98 | One view per entry, in order, under the page's table. |
| PublicPage.EscapeAll | convex/router.ts:100-112 | Each skill is escaped with the page's table, in order. |
| PublicPage.ServerSections | convex/router.ts:222-233 | The page starts with the header. Contact, experience, education and skills appear iff their data is non-empty. |
| PublicPage.ServerSectionsAreDefaultSurvivors | convex/router.ts:222-233 | The server page shows the sections the public view shows for the default order. |
| PublicPage.RenderPage | convex/router.ts:50-249 | The name, both name halves, the username and the skills are escaped with the given table. The contact block and the entries are the escaped links and entry views. The fragments are empty exactly when their data is, and the sections are the fixed order. The name never has raw quotes, and a name without special characters is shown as it is. The header's title, location and bio lines appear, escaped, exactly when the field has text. |
| PublicPage.AsWrittenPageLetsTagsThrough | convex/router.ts:50-249 | The page the program renders shows a `<script>` name raw, while the corrected page shows no `<` in it. |
| PublicPage.CorrectedPageHasNoMarkup | convex/router.ts:50-249 | Under the corrected table nothing the page escapes has `<`, `>`, `"` or `'`: the names, username, header lines, every contact link's target and text, every entry's heading, organisation and description, and every skill. |
| PublicPage.MakeLinkFreeOfMarkup | convex/router.ts:119-157 | A link built from a value without markup has none in its target or text. |
| PublicPage.ContactLinksFreeOfMarkup | convex/router.ts:114-160 | The corrected contact block has no markup. |
| PublicPage.EntriesFreeOfMarkup | convex/router.ts:58-98 | Corrected entries have no markup in their escaped parts. |
| PublicPage.SkillsFreeOfMarkup | convex/router.ts:100-112 | Corrected skills have no markup. |
| PublicPage.ContactLinksIgnoreOrder | convex/router.ts:114-160 | Under either table, the server's contact block does not depend on the stored section order. |
| PublicPage.PageIgnoresSectionsOrder | convex/router.ts:222-233 | Under either table, the stored section order plays no part in the server page. |
| PublicPage.UsernameFromPath | convex/router.ts:13 | For a `/@` path, `/@` followed by the extracted username is the path. |
| PublicPage.Status | convex/router.ts:19-46 | The profile page is 200, not-found is 404, the error page is 500. |
| PublicPage.Serve | convex/router.ts:11-47 | A missing or private profile gets the 404 page naming the path's username. In a valid store the profile page is served iff a public row has that username, and it shows that row's page under the given table. |
| Routing.Middleware | middleware.ts:3-12 | Iff the path starts with `/@`, it is rewritten to `/u/` plus the remainder, kept exactly. The rewritten path never starts with `/@`. |
| Routing.MiddlewareOnce | middleware.ts:5-9 | The rule applied to its own output passes it through. |
| Routing.BarePrefixRewrites | middleware.ts:6-8 | `/@` alone is rewritten to `/u/`. |
| Routing.PathMatch | src/App.tsx:21-26 | The path matches iff it starts with `/@` and at least one further character follows, none a line terminator. The username is everything after `/@`. |
| Routing.FirstMatchFrom | src/App.tsx:29 | The scan finds the first position from i at which the query pattern matches, or reports that none does. |
| Routing.SearchMatch | src/App.tsx:29-34 | The query matches iff `?@` occurs with a non-empty, terminator-free rest to the end. The username is that rest for the leftmost such `?@`. |
| Routing.SearchMatchWithoutTerminators | src/App.tsx:29-34 | Without line terminators, the username is everything after the first `?@`. |
| Routing.Route | src/App.tsx:16-35 | A path match wins, then a query match. Otherwise the view stays `editor` with no username. |
| Routing.PublicIffMatched | src/App.tsx:38 | The public profile renders iff the path or the query names a user. The public view is never chosen with an empty username. |
| Routing.BarePrefixDoesNotMatch | src/App.tsx:21 | `/@` alone matches nothing. |
| Routing.PathMatchAgreesWithServer | middleware.ts:5-9 | The username the app reads from a path is the one the middleware forwards and the server looks up. |

## Left out

- Rendering: JSX, Tailwind classes, `SortableItem`, drag handles, CSS transforms, and dnd-kit sensors and collision detection. Only the drag-end decisions are modelled.
- `arrayMove` is library code and is not part of this model. It is specified as remove-then-insert for indices in range.
- Date display: the locale formatting in `formatDate` and in the picker's `label` is an uninterpreted `localized` function. Only the empty-string and "Present" cases are stated.
- MonthInput.NumberOf: `Number` is modelled only on trimmed runs of ASCII decimal digits. Signs, decimal points, exponents and hexadecimal are read as `NaN`, which no `YYYY-MM` value the picker writes contains.
- MonthInput.ToYMM: the read-back is stated only for years from 0 on, and the exact round trip only from year 100 on, since `new Date` maps years 0 to 99 into the 1900s. The `Date` range limits are not modelled.
- HTML and transport: the template text, headers and caching of the server page. The page is modelled as a record of the escaped values it carries: the name (title and heading), its first and last halves (name meta tags), the username (URLs and meta tags), the header's title, location and bio lines, and the sections, contact, experience, education and skills fragments. The description meta tags with their fallback sentence, the keywords tag and the JSON-LD block are not modelled.
- Authentication: `getAuthUserId` is an `Option` input. `convex/auth.ts` and the sign-in form are not part of this model.
- Concurrency: query scheduling and effects are not modelled. Each mutation is one atomic step, and each query result is an explicit event.
- Ids: `Date.now()` entry ids are a parameter. Their uniqueness is not assumed.
- `handleSave` in both editors sends the whole draft, section order included, to `updateProfile`. That mutation's argument validator has no `sectionsOrder`. The runtime's reaction is not visible, so `updateProfile` is modelled with its declared arguments.
- ProfileStore.Message: the error raised by `.unique()` on duplicate rows comes from the database, and its text is not modelled.
- Toasts, loading spinners, and the display of `createProfile`'s error message after a refused create.
- Glue: `app/page.tsx`, `app/editor/page.tsx`, `app/layout.tsx`, the `/u/[username]` page, the public-profile wrapper component, `components/ui/separator.tsx` and the lint config.

## Findings

| source | as written | input that shows it | evidently intended | confidence | as-written member | corrected member |
|---|---|---|---|---|---|---|
| convex/router.ts:304-313 | The escape table maps `<` and `>` to themselves, so tags in profile text reach the server page raw. | A profile name `<script>` is interpolated unchanged. | `<` to `&lt;` and `>` to `&gt;`, so the output has no raw markup. | high (the table text is literal); not executed | PublicPage.AsWrittenPageLetsTagsThrough | PublicPage.CorrectedPageHasNoMarkup |
| src/components/profile-setup.tsx:31-57 | The submit gate trusts the last availability answer, whichever username it was about. | Type "alice" and get `true`. Shorten to "al", which is never queried, and enter a name. Submit sends a create for "al". | Submit only with a `true` answer about the username being submitted. | medium (the store still refuses a taken name); not executed | ClaimWorkflow.StaleAnswerPassesGate | ClaimWorkflow.TrackedSubmit |

=== FILE: composer.dfy ===
/** The section composer: which sections of a profile are visible for a
    given section order, and where separators go. The editor preview
    computes a visibility flag and a "some later section is visible" flag per
    token; the public view filters the order down to the visible tokens and
    puts a separator between consecutive survivors. Both draw the same
    stream of sections and separators. */
module Composer {
  import opened Wrappers
  import opened Profiles
  import Seqs

  /** Whether the section named by `token` renders anything: the header
      always, contact when some contact field is set, a list section when
      its list is non-empty, and no other token. */
  predicate Visible(p: Profile, token: string) {
    if token == HeaderToken then true
    else if token == ContactToken then HasContact(p)
    else if token == ExperienceToken then |p.experience| > 0
    else if token == EducationToken then |p.education| > 0
    else if token == SkillsToken then |p.skills| > 0
    else false
  }

  /** The visibility rules, token by token. */
  lemma VisibilityRules(p: Profile, token: string)
    ensures token == HeaderToken ==> Visible(p, token)
    ensures !IsKnownToken(token) ==> !Visible(p, token)
    ensures Visible(p, ContactToken) <==> HasContact(p)
    ensures Visible(p, ExperienceToken) <==> p.experience != []
    ensures Visible(p, EducationToken) <==> p.education != []
    ensures Visible(p, SkillsToken) <==> p.skills != []
  {
  }

  /** The editor preview's order: the `sectionsOrder` prop, else the
      profile's own order, else the default. An explicit empty order is kept,
      because an empty array is truthy. */
  function PreviewOrder(prop: Option<seq<string>>, p: Profile): (order: seq<string>)
    ensures prop.Some? ==> order == prop.value
    ensures prop.None? && p.sectionsOrder.Some? ==> order == p.sectionsOrder.value
    ensures prop.None? && p.sectionsOrder.None? ==> order == DefaultOrder
  {
    prop.GetOr(p.sectionsOrder.GetOr(DefaultOrder))
  }

  /** The public view's order: the profile's own order, else the default. */
  function PublicOrder(p: Profile): (order: seq<string>)
    ensures p.sectionsOrder.Some? ==> order == p.sectionsOrder.value
    ensures p.sectionsOrder.None? ==> order == DefaultOrder
  {
    p.sectionsOrder.GetOr(DefaultOrder)
  }

  /** `tokens.some(isSectionVisible)`. */
  function AnyVisible(p: Profile, tokens: seq<string>): (b: bool)
    ensures b <==> exists j :: 0 <= j < |tokens| && Visible(p, tokens[j])
  {
    if tokens == [] then false
    else Visible(p, tokens[0]) || AnyVisible(p, tokens[1..])
  }

  /** What the preview decides for one position of the order. */
  datatype Slot = Slot(visible: bool, separatorAfter: bool)

  /** The preview's per-token decisions: `visible`, and `hasNextVisible`
      computed from `order.slice(idx + 1)`. A separator follows a token
      exactly when the token is visible and a later token is visible too. */
  function PreviewSlots(p: Profile, order: seq<string>): (slots: seq<Slot>)
    ensures |slots| == |order|
    ensures forall i :: 0 <= i < |order| ==> (slots[i].visible <==> Visible(p, order[i]))
    ensures forall i :: 0 <= i < |order| ==>
      (slots[i].separatorAfter <==> Visible(p, order[i]) && exists j :: i < j < |order| && Visible(p, order[j]))
  {
    seq(|order|, i requires 0 <= i < |order| =>
      Slot(Visible(p, order[i]), Visible(p, order[i]) && AnyVisible(p, order[i + 1..])))
  }

  /** One rendered item: a section body, or a separator line. */
  datatype Piece = SectionPiece(token: string) | SeparatorPiece

  /** What one slot draws. */
  function SlotPieces(token: string, slot: Slot): seq<Piece> {
    (if slot.visible then [SectionPiece(token)] else [])
    + (if slot.visible && slot.separatorAfter then [SeparatorPiece] else [])
  }

  /** The pieces slots `i..` draw, in order. */
  function RenderSlots(order: seq<string>, slots: seq<Slot>, i: nat): seq<Piece>
    requires |slots| == |order| && i <= |order|
    decreases |order| - i
  {
    if i == |order| then [] else SlotPieces(order[i], slots[i]) + RenderSlots(order, slots, i + 1)
  }

  /** Everything the editor preview draws for `order`. */
  function PreviewPieces(p: Profile, order: seq<string>): seq<Piece> {
    RenderSlots(order, PreviewSlots(p, order), 0)
  }

  /** The public view's filter: the visible tokens of `order`, and
      nothing invisible. */
  function Survivors(p: Profile, order: seq<string>): (s: seq<string>)
    ensures forall t :: t in s <==> t in order && Visible(p, t)
  {
    Seqs.Filter(order, t => Visible(p, t))
  }

  /** The survivors keep the order's order, and every visible token as
      often as the order holds it. */
  lemma SurvivorsKeepOrderAndCount(p: Profile, order: seq<string>)
    ensures Seqs.IsSubsequence(Survivors(p, order), order)
    ensures forall t :: Visible(p, t) ==> multiset(Survivors(p, order))[t] == multiset(order)[t]
  {
    Seqs.FilterCounts(order, t => Visible(p, t));
    Seqs.FilterSubsequence(order, t => Visible(p, t));
  }

  /** One step of the filter over the order. */
  lemma SurvivorsCons(p: Profile, t: string, rest: seq<string>)
    ensures Survivors(p, [t] + rest) == (if Visible(p, t) then [t] else []) + Survivors(p, rest)
  {
    Seqs.FilterCons(t, rest, u => Visible(p, u));
  }

  /** A survivor is followed by a separator unless it is the last one
      (`idx < arr.length - 1`). Sections sit at the even positions,
      separators at the odd ones, and the stream starts and ends with a
      section. */
  function Interleave(s: seq<string>): (pieces: seq<Piece>)
    ensures |pieces| == if s == [] then 0 else 2 * |s| - 1
  {
    if s == [] then []
    else [SectionPiece(s[0])] + (if |s| > 1 then [SeparatorPiece] else []) + Interleave(s[1..])
  }

  /** Sections sit at the even positions of the interleaved stream and
      separators at the odd ones. */
  lemma {:induction false} InterleaveShape(s: seq<string>)
    ensures forall k :: 0 <= k < |s| ==> Interleave(s)[2 * k] == SectionPiece(s[k])
    ensures forall k :: 0 <= k < |s| - 1 ==> Interleave(s)[2 * k + 1] == SeparatorPiece
  {
    if s != [] {
      InterleaveShape(s[1..]);
      var pieces := Interleave(s);
      var rest := Interleave(s[1..]);
      forall k | 1 <= k < |s|
        ensures pieces[2 * k] == SectionPiece(s[k])
      {
        assert pieces[2 * k] == rest[2 * (k - 1)];
        assert s[k] == s[1..][k - 1];
      }
      forall k | 1 <= k < |s| - 1
        ensures pieces[2 * k + 1] == SeparatorPiece
      {
        assert pieces[2 * k + 1] == rest[2 * (k - 1) + 1];
      }
    }
  }

  /** Everything the public view draws for `order`. */
  function PublicPieces(p: Profile, order: seq<string>): seq<Piece> {
    Interleave(Survivors(p, order))
  }

  /** Some later token is visible exactly when the filtered rest is
      non-empty. */
  lemma AnyVisibleIffSurvivors(p: Profile, tokens: seq<string>)
    ensures AnyVisible(p, tokens) <==> Survivors(p, tokens) != []
  {
    if AnyVisible(p, tokens) {
      var j :| 0 <= j < |tokens| && Visible(p, tokens[j]);
      assert tokens[j] in Survivors(p, tokens);
    }
  }

  /** The filter over five tokens, one token at a time. */
  lemma SurvivorsOfFive(p: Profile, a: string, b: string, c: string, d: string, e: string)
    ensures Survivors(p, [a, b, c, d, e])
      == (if Visible(p, a) then [a] else [])
      + ((if Visible(p, b) then [b] else [])
      + ((if Visible(p, c) then [c] else [])
      + ((if Visible(p, d) then [d] else [])
      + (if Visible(p, e) then [e] else []))))
  {
    Seqs.FilterOfFive(a, b, c, d, e, t => Visible(p, t));
  }

  /** The preview's decision at one position, as the preview computes it. */
  lemma PreviewSlotAt(p: Profile, order: seq<string>, i: nat)
    requires i < |order|
    ensures PreviewSlots(p, order)[i] == Slot(Visible(p, order[i]), Visible(p, order[i]) && AnyVisible(p, order[i + 1..]))
  {
  }

  /** One step of the interleaving: a section, then a separator when more
      survivors follow. */
  lemma InterleaveCons(t: string, rest: seq<string>)
    ensures Interleave([t] + rest) == [SectionPiece(t)] + (if rest != [] then [SeparatorPiece] else []) + Interleave(rest)
  {
    assert ([t] + rest)[0] == t && ([t] + rest)[1..] == rest;
  }

  /** What one visible-or-not token draws in the preview, followed by the
      public stream of the rest, is the public stream with that token in
      front. */
  lemma SlotThenRest(p: Profile, t: string, rest: seq<string>)
    ensures SlotPieces(t, Slot(Visible(p, t), Visible(p, t) && AnyVisible(p, rest))) + Interleave(Survivors(p, rest))
      == Interleave(Survivors(p, [t] + rest))
  {
    SurvivorsCons(p, t, rest);
    AnyVisibleIffSurvivors(p, rest);
    if Visible(p, t) {
      InterleaveCons(t, Survivors(p, rest));
    }
  }

  /** The preview's slots from position `i` on draw exactly what the public
      view draws for the rest of the order. */
  lemma {:induction false} RenderSlotsFrom(p: Profile, order: seq<string>, i: nat)
    requires i <= |order|
    ensures RenderSlots(order, PreviewSlots(p, order), i) == Interleave(Survivors(p, order[i..]))
    decreases |order| - i
  {
    if i < |order| {
      var slots := PreviewSlots(p, order);
      RenderSlotsFrom(p, order, i + 1);
      PreviewSlotAt(p, order, i);
      SlotThenRest(p, order[i], order[i + 1..]);
      assert order[i..] == [order[i]] + order[i + 1..];
      assert RenderSlots(order, slots, i) == SlotPieces(order[i], slots[i]) + RenderSlots(order, slots, i + 1);
    }
  }

  /** The editor preview and the public view draw the same stream of
      sections and separators for every profile and every order. */
  lemma PreviewMatchesPublic(p: Profile, order: seq<string>)
    ensures PreviewPieces(p, order) == PublicPieces(p, order)
  {
    RenderSlotsFrom(p, order, 0);
    assert order[0..] == order;
  }

  /** The public stream has one separator fewer than it has sections (none
      when nothing survives), never two separators in a row, and neither
      starts nor ends with a separator. */
  lemma SeparatorLayout(survivors: seq<string>)
    ensures var pieces := Interleave(survivors);
      && |pieces| == (if survivors == [] then 0 else 2 * |survivors| - 1)
      && (pieces != [] ==> pieces[0].SectionPiece? && pieces[|pieces| - 1].SectionPiece?)
      && (forall k :: 0 <= k < |pieces| - 1 ==> pieces[k].SectionPiece? || pieces[k + 1].SectionPiece?)
  {
    var pieces := Interleave(survivors);
    InterleaveShape(survivors);
    forall k | 0 <= k < |pieces| - 1
      ensures pieces[k].SectionPiece? || pieces[k + 1].SectionPiece?
    {
      var m := k / 2;
      if k == 2 * m {
        assert pieces[2 * m] == SectionPiece(survivors[m]);
      } else {
        assert k + 1 == 2 * (m + 1) && m + 1 < |survivors|;
        assert pieces[2 * (m + 1)] == SectionPiece(survivors[m + 1]);
      }
    }
    if pieces != [] {
      var last := |survivors| - 1;
      assert pieces[2 * last] == SectionPiece(survivors[last]);
      assert pieces[2 * 0] == SectionPiece(survivors[0]);
    }
  }

  /** The header survives whenever it is in the order; unknown tokens such
      as `bio` never do. */
  lemma HeaderAlwaysUnknownNever(p: Profile, order: seq<string>, t: string)
    ensures HeaderToken in order ==> HeaderToken in Survivors(p, order)
    ensures !IsKnownToken(t) ==> t !in Survivors(p, order)
  {
  }

  /** Filtering the order distributes over concatenation. */
  lemma {:induction false} SurvivorsAppend(p: Profile, a: seq<string>, b: seq<string>)
    ensures Survivors(p, a + b) == Survivors(p, a) + Survivors(p, b)
  {
    if a == [] {
      assert a + b == b;
    } else {
      assert (a + b)[1..] == a[1..] + b;
      SurvivorsAppend(p, a[1..], b);
    }
  }

  /** A token that is not visible can be dropped from the order without
      changing what the preview draws; in particular the legacy `bio` token
      changes nothing. */
  lemma InvisibleTokenIsInert(p: Profile, a: seq<string>, t: string, b: seq<string>)
    requires !Visible(p, t)
    ensures PreviewPieces(p, a + [t] + b) == PreviewPieces(p, a + b)
  {
    var whole := a + [t] + b;
    assert Survivors(p, whole) == Survivors(p, a + b) by {
      SurvivorsAppend(p, a + [t], b);
      SurvivorsAppend(p, a, [t]);
      SurvivorsAppend(p, a, b);
      SurvivorsOfInvisible(p, t);
      assert Survivors(p, a + [t]) == Survivors(p, a);
    }
    assert PreviewPieces(p, whole) == PublicPieces(p, whole) by {
      PreviewMatchesPublic(p, whole);
    }
    assert PreviewPieces(p, a + b) == PublicPieces(p, a + b) by {
      PreviewMatchesPublic(p, a + b);
    }
  }

  /** An invisible token does not survive on its own. */
  lemma SurvivorsOfInvisible(p: Profile, t: string)
    requires !Visible(p, t)
    ensures Survivors(p, [t]) == []
  {
  }

  /** A profile with no contact field and empty lists shows only its header
      sections, and separators only between repeated header tokens. */
  lemma {:induction false} BareProfileShowsOnlyHeader(p: Profile, order: seq<string>)
    requires !HasContact(p) && p.experience == [] && p.education == [] && p.skills == []
    ensures forall t :: t in Survivors(p, order) ==> t == HeaderToken
    ensures order == DefaultOrder ==> PublicPieces(p, order) == [SectionPiece(HeaderToken)]
  {
    forall t | t in Survivors(p, order)
      ensures t == HeaderToken
    {
      assert Visible(p, t);
    }
    if order == DefaultOrder {
      SurvivorsOfFive(p, HeaderToken, ContactToken, ExperienceToken, EducationToken, SkillsToken);
      VisibilityRules(p, HeaderToken);
      assert Survivors(p, order) == [HeaderToken];
    }
  }

  /** Date text on an entry: `formatDate` maps the empty string to itself
      and delegates everything else to the locale formatter, which stays
      uninterpreted here. */
  function FormatDate(date: string, localized: string -> string): (r: string)
    ensures date == "" ==> r == ""
    ensures date != "" ==> r == localized(date)
  {
    if date == "" then "" else localized(date)
  }

  /** The end label of an entry: `Present` for a current entry, else its
      formatted end date (empty when unset). */
  function EndLabel(e: Entry, localized: string -> string): (r: string)
    ensures e.current ==> r == "Present"
    ensures !e.current && (e.endDate.None? || e.endDate == Some("")) ==> r == ""
  {
    if e.current then "Present" else FormatDate(e.endDate.GetOr(""), localized)
  }

  /** For a current entry the stored end date is never consulted. */
  lemma CurrentIgnoresEndDate(e: Entry, other: Option<string>, localized: string -> string)
    requires e.current
    ensures EndLabel(e, localized) == EndLabel(e.(endDate := other), localized) == "Present"
  {
  }
}

=== FILE: contact.dfy ===
/** The contact block: which links appear, in which order, and where each
    one points. The preview, the public view and the server page all build
    the same five links. */
module Contact {
  import opened Wrappers
  import opened Profiles
  import Text
  import Seqs

  const HttpPrefix: string := "http"
  const HttpsScheme: string := "https://"
  const MailtoScheme: string := "mailto:"
  const GithubBase: string := "https://github.com/"
  const LinkedinBase: string := "https://linkedin.com/in/"
  const TwitterBase: string := "https://twitter.com/"
  const GithubLabel: string := "GitHub: "
  const LinkedinLabel: string := "LinkedIn: "
  const TwitterLabel: string := "Twitter: @"

  datatype Kind = Email | Website | GitHub | LinkedIn | Twitter

  /** One anchor: its kind, `href` and visible text. */
  datatype Link = Link(kind: Kind, href: string, text: string)

  /** A website is linked as it is when it already starts with `http`,
      otherwise behind `https://`. */
  function WebsiteHref(website: string): (href: string)
    ensures Text.StartsWith(href, HttpPrefix)
    ensures Text.StartsWith(website, HttpPrefix) ==> href == website
    ensures !Text.StartsWith(website, HttpPrefix) ==> href == HttpsScheme + website
  {
    if Text.StartsWith(website, HttpPrefix) then website else HttpsScheme + website
  }

  /** Linking a link changes nothing. */
  lemma WebsiteHrefIdempotent(website: string)
    ensures WebsiteHref(WebsiteHref(website)) == WebsiteHref(website)
  {
  }

  /** A fixed base followed by the handle; the handle is what follows the
      base. */
  function HandleHref(base: string, handle: string): (href: string)
    ensures Text.StartsWith(href, base) && href[|base|..] == handle
  {
    base + handle
  }

  /** Each kind of link points where its builder says. */
  predicate Wellformed(l: Link) {
    match l.kind
    case Email => Text.StartsWith(l.href, MailtoScheme)
    case Website => Text.StartsWith(l.href, HttpPrefix)
    case GitHub => Text.StartsWith(l.href, GithubBase)
    case LinkedIn => Text.StartsWith(l.href, LinkedinBase)
    case Twitter => Text.StartsWith(l.href, TwitterBase)
  }

  /** The anchor for one contact field: an email is a `mailto:` link
      showing the address, a website links as `WebsiteHref` says and shows
      itself, and a handle follows its site's base and shows behind the
      site's label. */
  function MakeLink(kind: Kind, value: string): (l: Link)
    ensures l.kind == kind && Wellformed(l)
    ensures kind == Email ==> l.href == MailtoScheme + value && l.text == value
    ensures kind == Website ==> l.href == WebsiteHref(value) && l.text == value
    ensures kind == GitHub ==> l.href == GithubBase + value && l.text == GithubLabel + value
    ensures kind == LinkedIn ==> l.href == LinkedinBase + value && l.text == LinkedinLabel + value
    ensures kind == Twitter ==> l.href == TwitterBase + value && l.text == TwitterLabel + value
  {
    match kind
    case Email => Link(Email, MailtoScheme + value, value)
    case Website => Link(Website, WebsiteHref(value), value)
    case GitHub => Link(GitHub, HandleHref(GithubBase, value), GithubLabel + value)
    case LinkedIn => Link(LinkedIn, HandleHref(LinkedinBase, value), LinkedinLabel + value)
    case Twitter => Link(Twitter, HandleHref(TwitterBase, value), TwitterLabel + value)
  }

  /** The field a link shows: its text with the kind's label taken off. */
  function LinkValue(l: Link): string {
    match l.kind
    case Email => l.text
    case Website => l.text
    case GitHub => Text.DropPrefix(l.text, GithubLabel)
    case LinkedIn => Text.DropPrefix(l.text, LinkedinLabel)
    case Twitter => Text.DropPrefix(l.text, TwitterLabel)
  }

  /** A link gives back the field it was made from, so different values
      of one kind never share a link. */
  lemma MakeLinkRecoversValue(kind: Kind, value: string, other: string)
    ensures LinkValue(MakeLink(kind, value)) == value
    ensures MakeLink(kind, value) == MakeLink(kind, other) ==> value == other
  {
    match kind
    case GitHub =>
      Text.DropPrefixOfPrefixed(GithubLabel, value);
      Text.DropPrefixOfPrefixed(GithubLabel, other);
    case LinkedIn =>
      Text.DropPrefixOfPrefixed(LinkedinLabel, value);
      Text.DropPrefixOfPrefixed(LinkedinLabel, other);
    case Twitter =>
      Text.DropPrefixOfPrefixed(TwitterLabel, value);
      Text.DropPrefixOfPrefixed(TwitterLabel, other);
    case _ =>
  }

  /** The block's order. */
  const AllKinds: seq<Kind> := [Email, Website, GitHub, LinkedIn, Twitter]

  lemma InAllKinds(k: Kind)
    ensures k in AllKinds
  {
    match k
    case Email => assert AllKinds[0] == k;
    case Website => assert AllKinds[1] == k;
    case GitHub => assert AllKinds[2] == k;
    case LinkedIn => assert AllKinds[3] == k;
    case Twitter => assert AllKinds[4] == k;
  }

  function FieldOf(p: Profile, kind: Kind): Option<string> {
    match kind
    case Email => p.email
    case Website => p.website
    case GitHub => p.github
    case LinkedIn => p.linkedin
    case Twitter => p.twitter
  }

  /** The kinds whose field has text, in the block's order. */
  function PresentKinds(p: Profile): (kinds: seq<Kind>)
    ensures forall k :: k in kinds <==> HasText(FieldOf(p, k))
    ensures Seqs.IsSubsequence(kinds, AllKinds)
    ensures kinds == [] <==> !HasContact(p)
  {
    var keep := (k: Kind) => HasText(FieldOf(p, k));
    var kinds := Seqs.Filter(AllKinds, keep);
    Seqs.FilterSubsequence(AllKinds, keep);
    assert forall k :: k in AllKinds by {
      forall k ensures k in AllKinds {
        InAllKinds(k);
      }
    }
    kinds
  }

  /** Which links appear depends on the contact fields alone. */
  lemma PresentKindsOfSameFields(p: Profile, q: Profile)
    requires forall k :: FieldOf(p, k) == FieldOf(q, k)
    ensures PresentKinds(p) == PresentKinds(q)
  {
    var f := (k: Kind) => HasText(FieldOf(p, k));
    var g := (k: Kind) => HasText(FieldOf(q, k));
    Seqs.FilterAgree(AllKinds, f, g);
    assert PresentKinds(p) == Seqs.Filter(AllKinds, f);
    assert PresentKinds(q) == Seqs.Filter(AllKinds, g);
  }

  /** The contact links of a profile: one per field with text, in the
      order email, website, GitHub, LinkedIn, Twitter. The block is empty
      exactly when the contact section is hidden. */
  function ContactLinks(p: Profile): (links: seq<Link>)
    ensures links == [] <==> !HasContact(p)
    ensures |links| == |PresentKinds(p)|
    ensures forall i :: 0 <= i < |links| ==> links[i] == LinkFor(p, PresentKinds(p)[i])
  {
    LinksFor(p, PresentKinds(p))
  }

  /** The anchor a field gets (an absent field reads as empty). */
  function LinkFor(p: Profile, kind: Kind): (l: Link)
    ensures l.kind == kind && Wellformed(l)
    ensures l == MakeLink(kind, FieldOf(p, kind).GetOr(""))
    ensures HasText(FieldOf(p, kind)) ==> LinkValue(l) == FieldOf(p, kind).value
  {
    MakeLinkRecoversValue(kind, FieldOf(p, kind).GetOr(""), "");
    MakeLink(kind, FieldOf(p, kind).GetOr(""))
  }

  /** One anchor per kind, in the kinds' order. */
  function LinksFor(p: Profile, kinds: seq<Kind>): (links: seq<Link>)
    ensures |links| == |kinds|
    ensures forall i :: 0 <= i < |links| ==> links[i] == LinkFor(p, kinds[i])
  {
    if kinds == [] then [] else [LinkFor(p, kinds[0])] + LinksFor(p, kinds[1..])
  }

  /** Every link shows a field that has text, and points where its kind
      says. */
  lemma ContactLinksShowPresentFields(p: Profile)
    ensures forall l :: l in ContactLinks(p) ==>
      && HasText(FieldOf(p, l.kind))
      && l == MakeLink(l.kind, FieldOf(p, l.kind).value)
      && Wellformed(l)
  {
    var links := ContactLinks(p);
    var kinds := PresentKinds(p);
    forall l | l in links
      ensures HasText(FieldOf(p, l.kind)) && l == MakeLink(l.kind, FieldOf(p, l.kind).value) && Wellformed(l)
    {
      var i :| 0 <= i < |links| && links[i] == l;
      assert kinds[i] in kinds;
      assert l == LinkFor(p, kinds[i]);
    }
  }
}

=== FILE: editor.dfy ===
/** The profile editor's draft (`formData`) and the operations the two
    editor variants share: seeding the draft from the stored profile,
    adding, updating and removing entries, adding and removing skills, and
    taking over a new list from the preview's reorder callbacks. Every
    operation replaces the draft wholesale and touches only its own field. */
module Editor {
  import opened Wrappers
  import opened Profiles
  import Text
  import Seqs
  import Composer
  import Reorder

  /** The editor's form state. Optional profile fields become `""`. */
  datatype Draft = Draft(
    name: string,
    title: string,
    location: string,
    bio: string,
    email: string,
    website: string,
    github: string,
    linkedin: string,
    twitter: string,
    experience: seq<Entry>,
    education: seq<Entry>,
    skills: seq<string>,
    isPublic: bool,
    sectionsOrder: seq<string>)

  /** The draft, the pending skill input, and whether a layout change is
      waiting to be saved. */
  datatype EditorState = EditorState(form: Draft, newSkill: string, layoutDirty: bool)

  /** The editors' fallback order, which still carries the legacy `bio`
      token. */
  const EditorDefaultOrder: seq<string> :=
    [HeaderToken, "bio", ContactToken, ExperienceToken, EducationToken, SkillsToken]

  /** The initial draft: every optional field read as `field || ""`, the
      lists and the public flag taken over, and the stored order or else the
      editor default. */
  function Seed(p: Profile): (d: Draft)
    ensures d.sectionsOrder == if p.sectionsOrder.Some? then p.sectionsOrder.value else EditorDefaultOrder
    ensures d.name == p.name && d.experience == p.experience && d.education == p.education
    ensures d.skills == p.skills && d.isPublic == p.isPublic
    ensures (d.email != "") == HasText(p.email) && (d.website != "") == HasText(p.website)
    ensures (d.github != "") == HasText(p.github) && (d.linkedin != "") == HasText(p.linkedin)
    ensures (d.twitter != "") == HasText(p.twitter)
    ensures d.title == p.title.GetOr("") && d.location == p.location.GetOr("") && d.bio == p.bio.GetOr("")
    ensures d.email == p.email.GetOr("") && d.website == p.website.GetOr("") && d.github == p.github.GetOr("")
    ensures d.linkedin == p.linkedin.GetOr("") && d.twitter == p.twitter.GetOr("")
  {
    Draft(
      p.name, p.title.GetOr(""), p.location.GetOr(""), p.bio.GetOr(""),
      p.email.GetOr(""), p.website.GetOr(""), p.github.GetOr(""),
      p.linkedin.GetOr(""), p.twitter.GetOr(""),
      p.experience, p.education, p.skills, p.isPublic,
      p.sectionsOrder.GetOr(EditorDefaultOrder))
  }

  /** A freshly opened editor. */
  function Open(p: Profile): (ed: EditorState)
    ensures ed.form == Seed(p) && ed.newSkill == "" && !ed.layoutDirty
  {
    EditorState(Seed(p), "", false)
  }

  /** What the preview is handed: `{ ...profile, ...formData }`. The
      stored row's identity stays; every field the draft holds wins, so an
      emptied field reads as empty text, not as absent. */
  function PreviewProfile(stored: Profile, d: Draft): (shown: Profile)
    ensures shown.userId == stored.userId && shown.username == stored.username
    ensures shown.name == d.name && shown.experience == d.experience && shown.education == d.education
    ensures shown.skills == d.skills && shown.isPublic == d.isPublic && shown.sectionsOrder == Some(d.sectionsOrder)
    ensures shown.title == Some(d.title) && shown.location == Some(d.location) && shown.bio == Some(d.bio)
    ensures shown.email == Some(d.email) && shown.website == Some(d.website) && shown.github == Some(d.github)
    ensures shown.linkedin == Some(d.linkedin) && shown.twitter == Some(d.twitter)
    ensures HasContact(shown) <==> d.email != "" || d.website != "" || d.github != "" || d.linkedin != "" || d.twitter != ""
  {
    stored.(
      name := d.name, title := Some(d.title), location := Some(d.location),
      bio := Some(d.bio), email := Some(d.email), website := Some(d.website),
      github := Some(d.github), linkedin := Some(d.linkedin),
      twitter := Some(d.twitter), experience := d.experience,
      education := d.education, skills := d.skills, isPublic := d.isPublic,
      sectionsOrder := Some(d.sectionsOrder))
  }

  /** The legacy `bio` token in the editor's default order draws nothing:
      the preview looks exactly as with the five-token default. */
  lemma BioTokenIsInert(p: Profile)
    ensures Composer.PreviewPieces(p, EditorDefaultOrder) == Composer.PreviewPieces(p, DefaultOrder)
  {
    var rest := [ContactToken, ExperienceToken, EducationToken, SkillsToken];
    assert EditorDefaultOrder == [HeaderToken] + ["bio"] + rest;
    assert DefaultOrder == [HeaderToken] + rest;
    assert !IsKnownToken("bio");
    Composer.InvisibleTokenIsInert(p, [HeaderToken], "bio", rest);
  }

  /** Opening the editor on a profile without its own order previews the
      same stream of sections and separators as the public page of that
      profile. */
  lemma OpenedPreviewMatchesPublicView(p: Profile)
    requires p.sectionsOrder.None?
    ensures var d := Open(p).form;
      Composer.PreviewPieces(PreviewProfile(p, d), Composer.PreviewOrder(Some(d.sectionsOrder), PreviewProfile(p, d)))
      == Composer.PublicPieces(p, Composer.PublicOrder(p))
  {
    var d := Open(p).form;
    var q := PreviewProfile(p, d);
    forall t ensures Composer.Visible(q, t) == Composer.Visible(p, t) {
    }
    BioTokenIsInert(q);
    Composer.PreviewMatchesPublic(q, DefaultOrder);
    Composer.PreviewMatchesPublic(p, DefaultOrder);
    SameVisibilitySameSurvivors(q, p, DefaultOrder);
  }

  /** Two profiles that agree on every token's visibility keep the same
      survivors. */
  lemma {:induction false} SameVisibilitySameSurvivors(p: Profile, q: Profile, order: seq<string>)
    requires forall t :: Composer.Visible(p, t) == Composer.Visible(q, t)
    ensures Composer.Survivors(p, order) == Composer.Survivors(q, order)
  {
    if order != [] {
      SameVisibilitySameSurvivors(p, q, order[1..]);
    }
  }

  /** The fields of an entry an edit can address. */
  datatype EntryField = Heading | Organisation | StartDate | EndDate | Current | Description

  /** A field's value. */
  datatype FieldValue = Text(text: string) | OptionalText(maybe: Option<string>) | Flag(flag: bool)

  /** `{ ...entry, [field]: value }` for the fields the form edits: role or
      degree, company or school, dates, the `current` box and the
      description. */
  datatype EntryEdit =
    | SetHeading(text: string)
    | SetOrganisation(text: string)
    | SetStartDate(text: string)
    | SetEndDate(text: string)
    | SetCurrent(flag: bool)
    | SetDescription(text: string)

  function Field(e: Entry, f: EntryField): FieldValue {
    match f
    case Heading => Text(e.heading)
    case Organisation => Text(e.organisation)
    case StartDate => Text(e.startDate)
    case EndDate => OptionalText(e.endDate)
    case Current => Flag(e.current)
    case Description => OptionalText(e.description)
  }

  function EditedField(edit: EntryEdit): EntryField {
    match edit
    case SetHeading(_) => Heading
    case SetOrganisation(_) => Organisation
    case SetStartDate(_) => StartDate
    case SetEndDate(_) => EndDate
    case SetCurrent(_) => Current
    case SetDescription(_) => Description
  }

  function EditedValue(edit: EntryEdit): FieldValue {
    match edit
    case SetHeading(t) => Text(t)
    case SetOrganisation(t) => Text(t)
    case SetStartDate(t) => Text(t)
    case SetEndDate(t) => OptionalText(Some(t))
    case SetCurrent(b) => Flag(b)
    case SetDescription(t) => OptionalText(Some(t))
  }

  /** One entry after an edit: the addressed field holds the new value, the
      id and every other field are as before. */
  function ApplyEdit(e: Entry, edit: EntryEdit): (r: Entry)
    ensures r.id == e.id
    ensures Field(r, EditedField(edit)) == EditedValue(edit)
    ensures forall f :: f != EditedField(edit) ==> Field(r, f) == Field(e, f)
  {
    match edit
    case SetHeading(t) => e.(heading := t)
    case SetOrganisation(t) => e.(organisation := t)
    case SetStartDate(t) => e.(startDate := t)
    case SetEndDate(t) => e.(endDate := Some(t))
    case SetCurrent(b) => e.(current := b)
    case SetDescription(t) => e.(description := Some(t))
  }

  /** Field values determine the entry. */
  lemma FieldsDetermineEntry(a: Entry, b: Entry)
    requires a.id == b.id
    requires forall f :: Field(a, f) == Field(b, f)
    ensures a == b
  {
    assert Field(a, Heading) == Field(b, Heading);
    assert Field(a, Organisation) == Field(b, Organisation);
    assert Field(a, StartDate) == Field(b, StartDate);
    assert Field(a, EndDate) == Field(b, EndDate);
    assert Field(a, Current) == Field(b, Current);
    assert Field(a, Description) == Field(b, Description);
  }

  /** The blank entry `add` appends: empty texts, not current. */
  function Blank(id: string): (e: Entry)
    ensures e.id == id && !e.current
    ensures forall f :: f != Current ==> Field(e, f) in {Text(""), OptionalText(Some(""))}
  {
    Entry(id, "", "", "", Some(""), false, Some(""))
  }

  /** `entries.map((e) => e.id === id ? { ...e, [field]: value } : e)`:
      same length, same ids, the entries with another id untouched, and in
      the matching ones only the addressed field changed. */
  function UpdateById(entries: seq<Entry>, id: string, edit: EntryEdit): (r: seq<Entry>)
    ensures |r| == |entries|
    ensures forall i :: 0 <= i < |entries| ==> r[i].id == entries[i].id
    ensures forall i :: 0 <= i < |entries| && entries[i].id != id ==> r[i] == entries[i]
    ensures forall i :: 0 <= i < |entries| && entries[i].id == id ==>
      Field(r[i], EditedField(edit)) == EditedValue(edit)
      && forall f :: f != EditedField(edit) ==> Field(r[i], f) == Field(entries[i], f)
  {
    seq(|entries|, i requires 0 <= i < |entries| =>
      if entries[i].id == id then ApplyEdit(entries[i], edit) else entries[i])
  }

  /** `entries.filter((e) => e.id !== id)`: exactly the entries with that id
      are gone, the others stay in order with their multiplicity. */
  function RemoveById(entries: seq<Entry>, id: string): (r: seq<Entry>)
    ensures forall e: Entry :: e in r ==> e.id != id
    ensures forall e: Entry :: e.id != id ==> multiset(r)[e] == multiset(entries)[e]
    ensures Seqs.IsSubsequence(r, entries)
  {
    var keep := (e: Entry) => e.id != id;
    Seqs.FilterCounts(entries, keep);
    Seqs.FilterSubsequence(entries, keep);
    Seqs.Filter(entries, keep)
  }

  /** `addExperience`, with the id (`Date.now()` in the source) supplied by
      the caller. */
  function AddExperience(ed: EditorState, id: string): (r: EditorState)
    ensures |r.form.experience| == |ed.form.experience| + 1
    ensures r.form.experience[..|ed.form.experience|] == ed.form.experience
    ensures r.form.experience[|ed.form.experience|] == Blank(id)
    ensures r == ed.(form := ed.form.(experience := r.form.experience))
  {
    ed.(form := ed.form.(experience := ed.form.experience + [Blank(id)]))
  }

  /** `updateExperience`: only the experience list changes. */
  function UpdateExperience(ed: EditorState, id: string, edit: EntryEdit): (r: EditorState)
    ensures r.form.experience == UpdateById(ed.form.experience, id, edit)
    ensures r == ed.(form := ed.form.(experience := r.form.experience))
  {
    ed.(form := ed.form.(experience := UpdateById(ed.form.experience, id, edit)))
  }

  /** `removeExperience`: only the experience list changes. */
  function RemoveExperience(ed: EditorState, id: string): (r: EditorState)
    ensures r.form.experience == RemoveById(ed.form.experience, id)
    ensures r == ed.(form := ed.form.(experience := r.form.experience))
  {
    ed.(form := ed.form.(experience := RemoveById(ed.form.experience, id)))
  }

  /** `addEducation`, with the id supplied by the caller. */
  function AddEducation(ed: EditorState, id: string): (r: EditorState)
    ensures |r.form.education| == |ed.form.education| + 1
    ensures r.form.education[..|ed.form.education|] == ed.form.education
    ensures r.form.education[|ed.form.education|] == Blank(id)
    ensures r == ed.(form := ed.form.(education := r.form.education))
  {
    ed.(form := ed.form.(education := ed.form.education + [Blank(id)]))
  }

  /** `updateEducation`: only the education list changes. */
  function UpdateEducation(ed: EditorState, id: string, edit: EntryEdit): (r: EditorState)
    ensures r.form.education == UpdateById(ed.form.education, id, edit)
    ensures r == ed.(form := ed.form.(education := r.form.education))
  {
    ed.(form := ed.form.(education := UpdateById(ed.form.education, id, edit)))
  }

  /** `removeEducation`: only the education list changes. */
  function RemoveEducation(ed: EditorState, id: string): (r: EditorState)
    ensures r.form.education == RemoveById(ed.form.education, id)
    ensures r == ed.(form := ed.form.(education := r.form.education))
  {
    ed.(form := ed.form.(education := RemoveById(ed.form.education, id)))
  }

  predicate NoDuplicates(xs: seq<string>) {
    forall i, j :: 0 <= i < j < |xs| ==> xs[i] != xs[j]
  }

  /** `addSkill`: the trimmed input is appended, and the input cleared, when
      it is non-empty and not yet a skill; otherwise nothing changes. Only
      the skills and the input change, and a duplicate-free list stays
      duplicate-free. */
  function AddSkill(ed: EditorState): (r: EditorState)
    ensures var t := Text.Trim(ed.newSkill);
      if t != "" && t !in ed.form.skills
      then r.form.skills == ed.form.skills + [t] && r.newSkill == ""
      else r == ed
    ensures r.form == ed.form.(skills := r.form.skills) && r.layoutDirty == ed.layoutDirty
    ensures NoDuplicates(ed.form.skills) ==> NoDuplicates(r.form.skills)
    ensures forall s :: s in r.form.skills ==> s in ed.form.skills || (s == Text.Trim(ed.newSkill) && s != "")
  {
    var t := Text.Trim(ed.newSkill);
    if t != "" && t !in ed.form.skills then
      EditorState(ed.form.(skills := ed.form.skills + [t]), "", ed.layoutDirty)
    else ed
  }

  /** `removeSkill`: every copy of the skill is gone, the others stay in
      order; nothing else changes. */
  function RemoveSkill(ed: EditorState, skill: string): (r: EditorState)
    ensures skill !in r.form.skills
    ensures forall s :: s != skill ==> multiset(r.form.skills)[s] == multiset(ed.form.skills)[s]
    ensures Seqs.IsSubsequence(r.form.skills, ed.form.skills)
    ensures r == ed.(form := ed.form.(skills := r.form.skills))
  {
    var keep := (s: string) => s != skill;
    Seqs.FilterCounts(ed.form.skills, keep);
    Seqs.FilterSubsequence(ed.form.skills, keep);
    ed.(form := ed.form.(skills := Seqs.Filter(ed.form.skills, keep)))
  }

  /** A skill list built only through `AddSkill` and `RemoveSkill` never
      holds a duplicate. */
  lemma RemoveSkillKeepsNoDuplicates(ed: EditorState, skill: string)
    requires NoDuplicates(ed.form.skills)
    ensures NoDuplicates(RemoveSkill(ed, skill).form.skills)
  {
    FilterKeepsNoDuplicates(ed.form.skills, (s: string) => s != skill);
  }

  /** Filtering a duplicate-free list leaves it duplicate-free. */
  lemma {:induction false} FilterKeepsNoDuplicates(xs: seq<string>, keep: string -> bool)
    requires NoDuplicates(xs)
    ensures NoDuplicates(Seqs.Filter(xs, keep))
  {
    if xs != [] {
      var tail := xs[1..];
      assert NoDuplicates(tail) by {
        forall i, j | 0 <= i < j < |tail| ensures tail[i] != tail[j] {
          assert tail[i] == xs[i + 1] && tail[j] == xs[j + 1];
        }
      }
      FilterKeepsNoDuplicates(tail, keep);
      var rest := Seqs.Filter(tail, keep);
      assert xs[0] !in tail by {
        forall k | 0 <= k < |tail| ensures tail[k] != xs[0] {
          assert tail[k] == xs[k + 1];
        }
      }
      if keep(xs[0]) {
        var r := [xs[0]] + rest;
        assert Seqs.Filter(xs, keep) == r;
        forall i, j | 0 <= i < j < |r| ensures r[i] != r[j] {
          if i == 0 {
            assert r[j] == rest[j - 1] && r[j] in rest;
          } else {
            assert r[i] == rest[i - 1] && r[j] == rest[j - 1];
          }
        }
      }
    }
  }

  /** The preview's reorder callbacks: the new list replaces its own field
      of the draft and marks the layout dirty; nothing else changes. */
  function ApplyReorder(ed: EditorState, change: Reorder.Reordered): (r: EditorState)
    ensures r.layoutDirty && r.newSkill == ed.newSkill
    ensures change.SectionsReordered? ==> r.form == ed.form.(sectionsOrder := change.order)
    ensures change.ExperienceReordered? ==> r.form == ed.form.(experience := change.entries)
    ensures change.EducationReordered? ==> r.form == ed.form.(education := change.entries)
    ensures change.SkillsReordered? ==> r.form == ed.form.(skills := change.skills)
  {
    var form := match change
      case SectionsReordered(order) => ed.form.(sectionsOrder := order)
      case ExperienceReordered(entries) => ed.form.(experience := entries)
      case EducationReordered(entries) => ed.form.(education := entries)
      case SkillsReordered(skills) => ed.form.(skills := skills);
    EditorState(form, ed.newSkill, true)
  }

  /** The callbacks both editors pass to the preview. */
  const AllCallbacks: Reorder.Callbacks := Reorder.Callbacks(true, true, true, true)

  /** A drag in the preview of `src/components/profile-editor.tsx`, which
      sorts all four lists. It fires exactly when both keys have one type
      and are found among that type's keys, and whatever list it changes
      is a permutation of what it was. */
  lemma DragInEditorPermutes(stored: Profile, ed: EditorState, ev: Reorder.DragEnd)
    ensures var q := PreviewProfile(stored, ed.form);
      var kind := Reorder.KeyType(ev.active);
      var keys := Reorder.KeysOfType(kind, ed.form.sectionsOrder, q);
      Reorder.NestedDragEnd(ev, ed.form.sectionsOrder, q, AllCallbacks).Some? <==>
        ev.over.Some? && Reorder.KeyType(ev.over.value) == kind && ev.active in keys && ev.over.value in keys
    ensures var q := PreviewProfile(stored, ed.form);
      var change := Reorder.NestedDragEnd(ev, ed.form.sectionsOrder, q, AllCallbacks);
      change.Some? ==>
        var r := ApplyReorder(ed, change.value);
        && multiset(r.form.sectionsOrder) == multiset(ed.form.sectionsOrder)
        && multiset(r.form.experience) == multiset(ed.form.experience)
        && multiset(r.form.education) == multiset(ed.form.education)
        && multiset(r.form.skills) == multiset(ed.form.skills)
  {
    var q := PreviewProfile(stored, ed.form);
    var kind := Reorder.KeyType(ev.active);
    if ev.active in Reorder.KeysOfType(kind, ed.form.sectionsOrder, q) {
      assert Reorder.Handles(kind, AllCallbacks);
    }
  }

  /** A drag in the preview of `components/profile-editor.tsx`, which sorts
      sections only. Only a section drag with both keys found fires, and
      it replaces the draft's order, and nothing else, by a permutation of
      it. */
  lemma DragInSectionsEditor(stored: Profile, ed: EditorState, ev: Reorder.DragEnd)
    ensures var keys := Reorder.Keys(Reorder.SectionType, ed.form.sectionsOrder);
      Reorder.SectionDragEnd(ev, ed.form.sectionsOrder, AllCallbacks).Some? <==>
        && ev.over.Some? && Reorder.KeyType(ev.active) == Reorder.SectionType
        && Reorder.KeyType(ev.over.value) == Reorder.SectionType
        && ev.active in keys && ev.over.value in keys
    ensures var change := Reorder.SectionDragEnd(ev, ed.form.sectionsOrder, AllCallbacks);
      change.Some? ==>
        var r := ApplyReorder(ed, change.value);
        && r.form == ed.form.(sectionsOrder := r.form.sectionsOrder)
        && multiset(r.form.sectionsOrder) == multiset(ed.form.sectionsOrder)
  {
    Reorder.SectionHandlersAgree(ev, ed.form.sectionsOrder, PreviewProfile(stored, ed.form), AllCallbacks);
  }
}

=== FILE: month_input.dfy ===
/** The editor's month picker, which stores dates as `YYYY-MM` strings:
    `parse` reads such a string into a calendar month (through `Number` and
    the `Date` constructor), and `toYMM` writes a picked month back. */
module MonthInput {
  import opened Wrappers
  import Text

  /** A `Date` as far as the picker looks at it: the full year and the
      zero-based month (`getFullYear()`, `getMonth()`). */
  datatype MonthDate = MonthDate(fullYear: int, monthIndex: int)

  predicate IsMonthDate(d: MonthDate) {
    0 <= d.monthIndex < 12
  }

  /** `Number(s)` on the strings the picker meets: after trimming, a run of
      decimal digits (the empty run reads as 0); anything else is `NaN`,
      here `None`. */
  function NumberOf(s: string): (n: Option<nat>)
    ensures n.Some? <==> Text.AllDigits(Text.Trim(s))
    ensures Text.Trim(s) == "" ==> n == Some(0)
  {
    var t := Text.Trim(s);
    if Text.AllDigits(t) then Some(Text.DigitsValue(t)) else None
  }

  /** `Number(String(n)) === n`. */
  lemma NumberOfNatToString(n: nat)
    ensures NumberOf(Text.NatToString(n)) == Some(n)
  {
    NumberOfDigits(Text.NatToString(n));
    Text.DigitsValueOfNatToString(n);
  }

  /** `new Date(year, monthIndex, 1)`: years 0 to 99 mean 1900 to 1999, and
      a month index past 11 carries into the following years. */
  function MakeDate(year: int, monthIndex: int): (d: MonthDate)
    ensures IsMonthDate(d)
    ensures d.fullYear * 12 + d.monthIndex == (if 0 <= year <= 99 then 1900 + year else year) * 12 + monthIndex
  {
    var y := if 0 <= year <= 99 then 1900 + year else year;
    var total := y * 12 + monthIndex;
    MonthDate(total / 12, total % 12)
  }

  /** `parse`: the first two `-`-separated parts read as numbers; an empty
      input, a missing month, a zero or a `NaN` year or month gives no
      date. */
  function Parse(v: string): (d: Option<MonthDate>)
    ensures v == "" ==> d.None?
    ensures '-' !in v ==> d.None?
    ensures d.Some? ==> IsMonthDate(d.value) && d.value.fullYear >= 100
  {
    if v == "" then None
    else
      if '-' !in v then Text.SplitWithoutSeparator(v, '-'); None
      else ReadParts(Text.Split(v, '-'))
  }

  /** `const [y, m] = parts` followed by the checks and the `Date`. */
  function ReadParts(parts: seq<string>): (d: Option<MonthDate>)
    requires |parts| >= 1
    ensures |parts| == 1 ==> d.None?
    ensures d.Some? ==> IsMonthDate(d.value) && d.value.fullYear >= 100
  {
    var year := NumberOf(parts[0]);
    var month := if |parts| >= 2 then NumberOf(parts[1]) else None;
    if year.None? || month.None? then None else FromNumbers(year.value, month.value)
  }

  /** The checks on a year and a month that did read as numbers: a zero is
      refused, anything else goes to `new Date(year, month - 1, 1)`. */
  function FromNumbers(year: nat, month: nat): (d: Option<MonthDate>)
    ensures d.None? <==> year == 0 || month == 0
    ensures d.Some? ==> IsMonthDate(d.value) && d.value.fullYear >= 100
  {
    if year == 0 || month == 0 then None else Some(MakeDate(year, month - 1))
  }

  /** A value with exactly one dash is read from its two sides. */
  lemma ParseDashed(a: string, b: string)
    requires '-' !in a && '-' !in b
    ensures Parse(a + "-" + b) == ReadParts([a, b])
  {
    var v := a + ['-'] + b;
    assert v == a + "-" + b;
    assert v[|a|] == '-';
    var parts := Text.Split(v, '-');
    assert parts == [a, b] by {
      Text.SplitAtFirst(a, '-', b);
      Text.SplitWithoutSeparator(b, '-');
    }
  }

  /** A non-empty run of digits needs no trimming and reads as its value. */
  lemma NumberOfDigits(s: string)
    requires s != [] && Text.AllDigits(s)
    ensures NumberOf(s) == Some(Text.DigitsValue(s))
  {
    assert Text.IsTrimmed(s) by {
      assert Text.IsDigit(s[0]) && Text.IsDigit(s[|s| - 1]);
    }
  }

  /** `String(n).padStart(2, "0")` for a month number. */
  function Pad2(n: nat): (s: string)
    requires 1 <= n <= 12
    ensures |s| == 2 && Text.AllDigits(s) && Text.DigitsValue(s) == n
  {
    if n < 10 then
      var s := ['0', Text.DigitChar(n)];
      assert s[..1] == ['0'] && ['0'][..0] == [];
      s
    else
      Text.DigitsValueOfNatToString(n);
      Text.NatToString(n)
  }

  /** `Number` reads a padded month back. */
  lemma NumberOfPad2(n: nat)
    requires 1 <= n <= 12
    ensures NumberOf(Pad2(n)) == Some(n)
  {
    NumberOfDigits(Pad2(n));
  }

  /** `toYMM`: the year, a dash, the two-digit month. */
  function ToYMM(d: MonthDate): (s: string)
    requires IsMonthDate(d)
    ensures d.fullYear >= 0 ==> Parse(s) == ReadParts([Text.NatToString(d.fullYear), Pad2(d.monthIndex + 1)])
    ensures d.fullYear >= 100 ==> Parse(s) == Some(d)
  {
    var s := Text.IntToString(d.fullYear) + "-" + Pad2(d.monthIndex + 1);
    if d.fullYear >= 0 then
      var y := Text.NatToString(d.fullYear);
      var m := Pad2(d.monthIndex + 1);
      assert '-' !in y by {
        assert Text.AllDigits(y);
      }
      assert '-' !in m by {
        assert Text.AllDigits(m);
      }
      ParseDashed(y, m);
      if d.fullYear >= 100 then
        ReadYearAndMonth(d);
        s
      else s
    else s
  }

  /** The two halves `toYMM` writes are read back as the year and month. */
  lemma ReadYearAndMonth(d: MonthDate)
    requires IsMonthDate(d) && d.fullYear >= 100
    ensures ReadParts([Text.NatToString(d.fullYear), Pad2(d.monthIndex + 1)]) == Some(d)
  {
    NumberOfNatToString(d.fullYear);
    NumberOfPad2(d.monthIndex + 1);
    ReadNumbers(Text.NatToString(d.fullYear), Pad2(d.monthIndex + 1), d.fullYear, d.monthIndex);
  }

  /** Two parts that read as a year from 100 on and a month from 1 to 12
      give that month. */
  lemma ReadNumbers(y: string, m: string, year: nat, monthIndex: int)
    requires year >= 100 && 0 <= monthIndex < 12
    requires NumberOf(y) == Some(year) && NumberOf(m) == Some(monthIndex + 1)
    ensures ReadParts([y, m]) == Some(MonthDate(year, monthIndex))
  {
    MakeDateInRange(year, monthIndex);
  }

  /** From year 100 on, a month index within the year is taken as it is. */
  lemma MakeDateInRange(year: int, monthIndex: int)
    requires year >= 100 && 0 <= monthIndex < 12
    ensures MakeDate(year, monthIndex) == MonthDate(year, monthIndex)
  {
  }

  /** Storing what the picker shows does not change it again: the month a
      stored value parses to survives one more write-and-read. */
  lemma NormaliseIdempotent(v: string)
    requires Parse(v).Some?
    ensures Parse(ToYMM(Parse(v).value)) == Parse(v)
  {
  }

  /** What `parse` does with two numbers it has read. */
  lemma ReadTwoNumbers(y: string, m: string, year: nat, month: nat)
    requires NumberOf(y) == Some(year) && NumberOf(m) == Some(month)
    ensures ReadParts([y, m]) == FromNumbers(year, month)
  {
    var parts := [y, m];
    assert parts[0] == y && parts[1] == m;
  }

  /** A year and a month written in decimal are read as `new Date(year,
      month - 1, 1)`, unless either is zero; a month past 12 carries into
      the following years. */
  lemma ParseDecimal(year: nat, month: nat)
    ensures Parse(Text.NatToString(year) + "-" + Text.NatToString(month))
      == if year == 0 || month == 0 then None else Some(MakeDate(year, month - 1))
  {
    var y := Text.NatToString(year);
    var m := Text.NatToString(month);
    assert '-' !in y by {
      assert Text.AllDigits(y);
    }
    assert '-' !in m by {
      assert Text.AllDigits(m);
    }
    ParseDashed(y, m);
    NumberOfNatToString(year);
    NumberOfNatToString(month);
    ReadTwoNumbers(y, m, year, month);
  }

  /** Years 1 to 99 are read in the twentieth century. */
  lemma TwoDigitYears(year: nat, month: nat)
    requires 1 <= year <= 99 && 1 <= month <= 12
    ensures Parse(Text.NatToString(year) + "-" + Text.NatToString(month)) == Some(MonthDate(1900 + year, month - 1))
  {
    ParseDecimal(year, month);
    MakeDateTwoDigit(year, month - 1);
  }

  /** `new Date` reads a year from 0 to 99 as that year of the twentieth
      century. */
  lemma MakeDateTwoDigit(year: int, monthIndex: int)
    requires 0 <= year <= 99 && 0 <= monthIndex < 12
    ensures MakeDate(year, monthIndex) == MonthDate(1900 + year, monthIndex)
  {
    assert MakeDate(year, monthIndex) == MakeDate(1900 + year, monthIndex);
    MakeDateInRange(1900 + year, monthIndex);
  }
}

=== FILE: profiles.dfy ===
/** The profile document and its parts, as stored in the `profiles` table
    and as handed to the preview and public-view components. */
module Profiles {
  import opened Wrappers

  /** Opaque reference to an authenticated user. */
  type UserId = string

  /** One experience or education entry. The two kinds share one shape:
      `heading` is the role (experience) or the degree (education), and
      `organisation` is the company or the school. */
  datatype Entry = Entry(
    id: string,
    heading: string,
    organisation: string,
    startDate: string,
    endDate: Option<string>,
    current: bool,
    description: Option<string>)

  /** A profile document. Optional string fields are `None` when the
      document lacks them. */
  datatype Profile = Profile(
    userId: UserId,
    username: string,
    name: string,
    title: Option<string>,
    location: Option<string>,
    bio: Option<string>,
    email: Option<string>,
    website: Option<string>,
    github: Option<string>,
    linkedin: Option<string>,
    twitter: Option<string>,
    experience: seq<Entry>,
    education: seq<Entry>,
    skills: seq<string>,
    sectionsOrder: Option<seq<string>>,
    isPublic: bool)

  /** JavaScript truthiness of an optional string: present and non-empty. */
  predicate HasText(o: Option<string>) {
    o.Some? && o.value != ""
  }

  /** `email || website || github || linkedin || twitter` is truthy. */
  predicate HasContact(p: Profile) {
    HasText(p.email) || HasText(p.website) || HasText(p.github)
    || HasText(p.linkedin) || HasText(p.twitter)
  }

  const HeaderToken: string := "header"
  const ContactToken: string := "contact"
  const ExperienceToken: string := "experience"
  const EducationToken: string := "education"
  const SkillsToken: string := "skills"

  /** The section order the preview, the public view and the server page
      fall back to. */
  const DefaultOrder: seq<string> :=
    [HeaderToken, ContactToken, ExperienceToken, EducationToken, SkillsToken]

  /** The tokens a section renderer knows; anything else (such as the legacy
      `bio`) renders nothing. */
  predicate IsKnownToken(token: string) {
    token in DefaultOrder
  }
}

=== FILE: public_page.dfy ===
/** The server-rendered public page behind `GET /@{username}`: the username
    taken from the path, the 404 gate, HTML escaping, the contact links,
    the first/last-name split, and the page's fixed section order. The
    HTML template text itself is not modelled; the page is the data it
    interpolates. */
module PublicPage {
  import opened Wrappers
  import opened Profiles
  import Text
  import Composer
  import Contact
  import ProfileStore
  import Seqs

  // ---------------------------------------------------------------------
  // Escaping

  const AmpEntity: string := "&amp;"
  const LtEntity: string := "&lt;"
  const GtEntity: string := "&gt;"
  const QuotEntity: string := "&quot;"
  const AposEntity: string := "&#039;"

  /** The characters that can end an attribute value or open a tag. */
  predicate IsMarkup(c: char) {
    c == '<' || c == '>' || c == '"' || c == '\''
  }

  /** The characters the escape table names. */
  predicate IsSpecial(c: char) {
    c == '&' || IsMarkup(c)
  }

  predicate FreeOf(s: string, bad: char -> bool) {
    forall i :: 0 <= i < |s| ==> !bad(s[i])
  }

  /** The replacement for one character, with `<` and `>` escaped. */
  function Entity(c: char): (r: string)
    ensures FreeOf(r, IsMarkup)
    ensures !IsSpecial(c) ==> r == [c]
    ensures |r| >= 1 && (r[0] == '&' <==> IsSpecial(c))
  {
    if c == '&' then AmpEntity
    else if c == '<' then LtEntity
    else if c == '>' then GtEntity
    else if c == '"' then QuotEntity
    else if c == '\'' then AposEntity
    else [c]
  }

  /** `escapeHtml` with the table it evidently means: every character of
      `&<>"'` replaced by its entity. The output holds no raw `<`, `>`,
      `"` or `'`, and text without special characters is left alone. */
  function EscapeHtml(s: string): (r: string)
    ensures FreeOf(r, IsMarkup)
    ensures FreeOf(s, IsSpecial) ==> r == s
    ensures |r| >= |s|
  {
    if s == [] then []
    else
      var head := Entity(s[0]);
      var tail := EscapeHtml(s[1..]);
      assert FreeOf(head + tail, IsMarkup) by {
        forall i | 0 <= i < |head + tail| ensures !IsMarkup((head + tail)[i]) {
          if i >= |head| {
            assert (head + tail)[i] == tail[i - |head|];
          }
        }
      }
      assert FreeOf(s, IsSpecial) ==> FreeOf(s[1..], IsSpecial) && !IsSpecial(s[0]) by {
        if FreeOf(s, IsSpecial) {
          forall i | 0 <= i < |s[1..]| ensures !IsSpecial(s[1..][i]) {
            assert s[1..][i] == s[i + 1];
          }
        }
      }
      assert FreeOf(s, IsSpecial) ==> head + tail == s by {
        if FreeOf(s, IsSpecial) {
          assert [s[0]] + s[1..] == s;
        }
      }
      head + tail
  }

  /** The replacement for one character as the source's table has it:
      `<` and `>` map to themselves. */
  function EntityAsWritten(c: char): (r: string)
    ensures c == '<' || c == '>' ==> r == [c]
    ensures c != '<' && c != '>' ==> r == Entity(c)
  {
    if c == '&' then AmpEntity
    else if c == '"' then QuotEntity
    else if c == '\'' then AposEntity
    else [c]
  }

  /** `escapeHtml` as written. Quotes are still escaped, so attribute
      values stay closed, but tags pass through. */
  function EscapeHtmlAsWritten(s: string): (r: string)
    ensures forall i :: 0 <= i < |r| ==> r[i] != '"' && r[i] != '\''
    ensures (forall i :: 0 <= i < |s| ==> s[i] != '&' && s[i] != '"' && s[i] != '\'') ==> r == s
  {
    if s == [] then []
    else
      var head := EntityAsWritten(s[0]);
      var tail := EscapeHtmlAsWritten(s[1..]);
      assert forall i :: 0 <= i < |head + tail| ==> (head + tail)[i] != '"' && (head + tail)[i] != '\'' by {
        forall i | 0 <= i < |head + tail| ensures (head + tail)[i] != '"' && (head + tail)[i] != '\'' {
          if i >= |head| {
            assert (head + tail)[i] == tail[i - |head|];
          }
        }
      }
      assert (forall i :: 0 <= i < |s| ==> s[i] != '&' && s[i] != '"' && s[i] != '\'') ==> head + tail == s by {
        if forall i :: 0 <= i < |s| ==> s[i] != '&' && s[i] != '"' && s[i] != '\'' {
          assert forall i :: 0 <= i < |s[1..]| ==> s[1..][i] == s[i + 1];
          assert [s[0]] + s[1..] == s;
        }
      }
      head + tail
  }

  /** The as-written escape also works character by character. */
  lemma {:induction false} EscapeHtmlAsWrittenAppend(a: string, b: string)
    ensures EscapeHtmlAsWritten(a + b) == EscapeHtmlAsWritten(a) + EscapeHtmlAsWritten(b)
  {
    if a == [] {
      assert a + b == b;
    } else {
      assert (a + b)[1..] == a[1..] + b;
      EscapeHtmlAsWrittenAppend(a[1..], b);
    }
  }

  /** As written, a script tag in a profile field reaches the page
      unchanged. */
  lemma AsWrittenLetsTagsThrough()
    ensures EscapeHtmlAsWritten("<script>") == "<script>"
    ensures '<' in EscapeHtmlAsWritten("<script>")
  {
    var s := "<script>";
    assert forall i :: 0 <= i < |s| ==> s[i] != '&' && s[i] != '"' && s[i] != '\'';
    assert s[0] == '<';
  }

  /** The two tables differ only on `<` and `>`: on text without them the
      escapes agree. */
  lemma {:induction false} EscapesAgreeWithoutTags(s: string)
    requires forall i :: 0 <= i < |s| ==> s[i] != '<' && s[i] != '>'
    ensures EscapeHtmlAsWritten(s) == EscapeHtml(s)
  {
    if s != [] {
      assert forall i :: 0 <= i < |s[1..]| ==> s[1..][i] == s[i + 1];
      EscapesAgreeWithoutTags(s[1..]);
    }
  }

  /** Escaping works character by character, so it distributes over
      concatenation. */
  lemma {:induction false} EscapeHtmlAppend(a: string, b: string)
    ensures EscapeHtml(a + b) == EscapeHtml(a) + EscapeHtml(b)
  {
    if a == [] {
      assert a + b == b;
    } else {
      var c, rest := a[0], a[1..];
      calc {
        EscapeHtml(a + b);
        { assert a + b == [c] + (rest + b); }
        EscapeHtml([c] + (rest + b));
        { EscapeHtmlCons(c, rest + b); }
        Entity(c) + EscapeHtml(rest + b);
        { EscapeHtmlAppend(rest, b); }
        Entity(c) + (EscapeHtml(rest) + EscapeHtml(b));
        { Seqs.AppendAssoc(Entity(c), EscapeHtml(rest), EscapeHtml(b)); }
        (Entity(c) + EscapeHtml(rest)) + EscapeHtml(b);
        { EscapeHtmlCons(c, rest); assert a == [c] + rest; }
        EscapeHtml(a) + EscapeHtml(b);
      }
    }
  }

  /** One step of the escape: the first character's replacement, then the
      rest escaped. */
  lemma EscapeHtmlCons(c: char, s: string)
    ensures EscapeHtml([c] + s) == Entity(c) + EscapeHtml(s)
  {
    assert ([c] + s)[0] == c && ([c] + s)[1..] == s;
  }

  /** The escape table a page is built with: the source's, which leaves
      `<` and `>` alone and is what `generateProfileHTML` renders, or the
      corrected one. */
  datatype Table = AsWritten | Corrected

  /** The replacement for one character under a table. Only an entity
      starts with `&`; anything else is the character itself. */
  function EntityIn(t: Table, c: char): (r: string)
    ensures |r| >= 1
    ensures !IsSpecial(c) ==> r == [c]
    ensures r[0] != '&' ==> r == [c]
  {
    if t == Corrected then Entity(c) else EntityAsWritten(c)
  }

  /** `escapeHtml` under a table. Both tables escape the quotes; only the
      corrected one leaves no raw markup at all. */
  function Escape(t: Table, s: string): (r: string)
    ensures forall i :: 0 <= i < |r| ==> r[i] != '"' && r[i] != '\''
    ensures t == Corrected ==> FreeOf(r, IsMarkup)
    ensures FreeOf(s, IsSpecial) ==> r == s
  {
    if t == Corrected then
      var r := EscapeHtml(s);
      assert forall i :: 0 <= i < |r| ==> !IsMarkup(r[i]);
      r
    else
      assert FreeOf(s, IsSpecial) ==> forall i :: 0 <= i < |s| ==> s[i] != '&' && s[i] != '"' && s[i] != '\'' by {
        if FreeOf(s, IsSpecial) {
          forall i | 0 <= i < |s| ensures s[i] != '&' && s[i] != '"' && s[i] != '\'' {
            assert !IsSpecial(s[i]);
          }
        }
      }
      EscapeHtmlAsWritten(s)
  }

  /** One step of either escape. */
  lemma EscapeCons(t: Table, c: char, s: string)
    ensures Escape(t, [c] + s) == EntityIn(t, c) + Escape(t, s)
  {
    assert ([c] + s)[0] == c && ([c] + s)[1..] == s;
    if t == Corrected {
      EscapeHtmlCons(c, s);
    }
  }

  /** Reading entities back: the inverse of `EscapeHtml`. */
  function Unescape(t: string): string
    decreases |t|
  {
    if t == [] then []
    else if Text.StartsWith(t, AmpEntity) then "&" + Unescape(t[|AmpEntity|..])
    else if Text.StartsWith(t, LtEntity) then "<" + Unescape(t[|LtEntity|..])
    else if Text.StartsWith(t, GtEntity) then ">" + Unescape(t[|GtEntity|..])
    else if Text.StartsWith(t, QuotEntity) then "\"" + Unescape(t[|QuotEntity|..])
    else if Text.StartsWith(t, AposEntity) then "'" + Unescape(t[|AposEntity|..])
    else [t[0]] + Unescape(t[1..])
  }

  /** One escaped character is read back as itself. */
  lemma UnescapeEntity(c: char, rest: string)
    ensures Unescape(Entity(c) + rest) == [c] + Unescape(rest)
  {
    var e := Entity(c);
    var t := e + rest;
    assert t[..|e|] == e;
    assert t[|e|..] == rest;
    if !IsSpecial(c) {
      assert t[0] == c && t[1..] == rest;
      assert AmpEntity[0] == '&' && LtEntity[0] == '&' && GtEntity[0] == '&';
      assert QuotEntity[0] == '&' && AposEntity[0] == '&';
      assert !Text.StartsWith(t, AmpEntity) && !Text.StartsWith(t, LtEntity) && !Text.StartsWith(t, GtEntity);
      assert !Text.StartsWith(t, QuotEntity) && !Text.StartsWith(t, AposEntity);
    } else if c == '&' {
      assert Text.StartsWith(t, AmpEntity);
    } else if c == '<' {
      assert !Text.StartsWith(t, AmpEntity) by { assert t[1] == 'l' && AmpEntity[1] == 'a'; }
      assert Text.StartsWith(t, LtEntity);
    } else if c == '>' {
      assert !Text.StartsWith(t, AmpEntity) by { assert t[1] == 'g' && AmpEntity[1] == 'a'; }
      assert !Text.StartsWith(t, LtEntity) by { assert t[1] == 'g' && LtEntity[1] == 'l'; }
      assert Text.StartsWith(t, GtEntity);
    } else if c == '"' {
      assert !Text.StartsWith(t, AmpEntity) by { assert t[1] == 'q' && AmpEntity[1] == 'a'; }
      assert !Text.StartsWith(t, LtEntity) by { assert t[1] == 'q' && LtEntity[1] == 'l'; }
      assert !Text.StartsWith(t, GtEntity) by { assert t[1] == 'q' && GtEntity[1] == 'g'; }
      assert Text.StartsWith(t, QuotEntity);
    } else {
      assert !Text.StartsWith(t, AmpEntity) by { assert t[1] == '#' && AmpEntity[1] == 'a'; }
      assert !Text.StartsWith(t, LtEntity) by { assert t[1] == '#' && LtEntity[1] == 'l'; }
      assert !Text.StartsWith(t, GtEntity) by { assert t[1] == '#' && GtEntity[1] == 'g'; }
      assert !Text.StartsWith(t, QuotEntity) by { assert t[1] == '#' && QuotEntity[1] == 'q'; }
      assert Text.StartsWith(t, AposEntity);
    }
  }

  /** Escaping loses nothing: unescaping gives the original text back. */
  lemma {:induction false} UnescapeEscape(s: string)
    ensures Unescape(EscapeHtml(s)) == s
  {
    if s != [] {
      UnescapeEntity(s[0], EscapeHtml(s[1..]));
      UnescapeEscape(s[1..]);
      assert [s[0]] + s[1..] == s;
    }
  }

  /** Either escape leaves a leading `http` where it was, and creates
      none. */
  lemma EscapeKeepsHttpPrefix(t: Table, w: string)
    ensures Text.StartsWith(Escape(t, w), Contact.HttpPrefix) <==> Text.StartsWith(w, Contact.HttpPrefix)
  {
    if Text.StartsWith(w, Contact.HttpPrefix) {
      PlainPrefixSurvives(t, w, Contact.HttpPrefix);
    }
    if Text.StartsWith(Escape(t, w), Contact.HttpPrefix) {
      PlainPrefixIsLiteral(t, w, Contact.HttpPrefix);
    }
  }

  /** A prefix without special characters is still a prefix after
      escaping. */
  lemma {:induction false} PlainPrefixSurvives(t: Table, w: string, p: string)
    requires FreeOf(p, IsSpecial) && Text.StartsWith(w, p)
    ensures Text.StartsWith(Escape(t, w), p)
  {
    if p != [] {
      assert !IsSpecial(p[0]) && w[0] == p[0];
      assert p == [p[0]] + p[1..] && w == [w[0]] + w[1..];
      Text.StartsWithCons(p[0], w[1..], p[1..]);
      FreeOfTail(p, IsSpecial);
      PlainPrefixSurvives(t, w[1..], p[1..]);
      EscapeCons(t, w[0], w[1..]);
      Text.StartsWithCons(p[0], Escape(t, w[1..]), p[1..]);
    }
  }

  /** Escaped text that starts with a word free of `&` came from text
      starting with that word: no entity begins with anything but `&`. */
  lemma {:induction false} PlainPrefixIsLiteral(t: Table, w: string, p: string)
    requires FreeOf(p, IsSpecial) && Text.StartsWith(Escape(t, w), p)
    ensures Text.StartsWith(w, p)
  {
    if p != [] {
      assert Escape(t, w)[0] == p[0] && !IsSpecial(p[0]);
      EscapedPlainHead(t, w);
      assert p == [p[0]] + p[1..] && w == [w[0]] + w[1..];
      Text.StartsWithCons(p[0], Escape(t, w[1..]), p[1..]);
      FreeOfTail(p, IsSpecial);
      PlainPrefixIsLiteral(t, w[1..], p[1..]);
      Text.StartsWithCons(p[0], w[1..], p[1..]);
    }
  }

  /** Escaped text that starts with anything but `&` starts with that
      character of the original, and the rest is the rest escaped. */
  lemma EscapedPlainHead(t: Table, w: string)
    requires Escape(t, w) != [] && Escape(t, w)[0] != '&'
    ensures w != [] && Escape(t, w) == [w[0]] + Escape(t, w[1..])
  {
    assert w != [];
    assert w == [w[0]] + w[1..];
    EscapeCons(t, w[0], w[1..]);
  }

  lemma FreeOfTail(p: string, bad: char -> bool)
    requires p != [] && FreeOf(p, bad)
    ensures FreeOf(p[1..], bad)
  {
    assert forall i :: 0 <= i < |p[1..]| ==> p[1..][i] == p[i + 1];
  }

  // ---------------------------------------------------------------------
  // Names and links

  /** `name.split(' ')[0]`. */
  function FirstName(name: string): (first: string)
    ensures ' ' !in first
  {
    Text.Split(name, ' ')[0]
  }

  /** `name.split(' ').slice(1).join(' ')`: everything after the first
      space, and nothing for a one-word name. */
  function LastName(name: string): (last: string)
    ensures ' ' !in name ==> last == ""
    ensures |last| < |name| || name == ""
  {
    var parts := Text.Split(name, ' ');
    assert ' ' !in name ==> parts == [name] by {
      if ' ' !in name {
        Text.SplitWithoutSeparator(name, ' ');
      }
    }
    assert |parts| > 1 ==> name == parts[0] + [' '] + Text.Join(parts[1..], ' ');
    Text.Join(parts[1..], ' ')
  }

  /** The split loses nothing: with a space in the name the two halves
      joined by a space give the name back; without one the first name is
      the whole name. */
  lemma NameRejoins(name: string)
    ensures ' ' in name ==> FirstName(name) + " " + LastName(name) == name
    ensures ' ' !in name ==> FirstName(name) == name && LastName(name) == ""
  {
    var parts := Text.Split(name, ' ');
    if ' ' in name {
      assert |parts| != 1;
    } else {
      Text.SplitWithoutSeparator(name, ' ');
    }
  }

  /** The server's anchor for one contact field: every interpolated value
      escaped, and the `http` test made on the raw website. */
  function ServerLink(t: Table, kind: Contact.Kind, value: string): (l: Contact.Link)
    ensures l == Contact.MakeLink(kind, Escape(t, value))
  {
    EscapeKeepsHttpPrefix(t, value);
    match kind
    case Website =>
      var href := if Text.StartsWith(value, Contact.HttpPrefix) then Escape(t, value) else Contact.HttpsScheme + Escape(t, value);
      Contact.Link(Contact.Website, href, Escape(t, value))
    case _ => Contact.MakeLink(kind, Escape(t, value))
  }

  function ServerLinksFor(t: Table, p: Profile, kinds: seq<Contact.Kind>): (links: seq<Contact.Link>)
    ensures |links| == |kinds|
    ensures forall i :: 0 <= i < |links| ==> links[i] == ServerLink(t, kinds[i], Contact.FieldOf(p, kinds[i]).GetOr(""))
  {
    if kinds == [] then [] else [ServerLink(t, kinds[0], Contact.FieldOf(p, kinds[0]).GetOr(""))] + ServerLinksFor(t, p, kinds[1..])
  }

  /** The server's contact block: the preview's links for the same fields
      with every value escaped; empty exactly when there is no contact
      field with text. */
  function ServerContactLinks(t: Table, p: Profile): (links: seq<Contact.Link>)
    ensures links == [] <==> !HasContact(p)
    ensures |links| == |Contact.PresentKinds(p)|
    ensures forall i :: 0 <= i < |links| ==>
      var k := Contact.PresentKinds(p)[i];
      links[i] == Contact.MakeLink(k, Escape(t, Contact.FieldOf(p, k).GetOr("")))
  {
    ServerLinksFor(t, p, Contact.PresentKinds(p))
  }

  // ---------------------------------------------------------------------
  // The page

  /** One experience or education item as interpolated. */
  datatype EntryView = EntryView(heading: string, organisation: string, start: string, end: string, description: Option<string>)

  function ViewEntry(t: Table, e: Entry, localized: string -> string): (v: EntryView)
    ensures v.start == Composer.FormatDate(e.startDate, localized)
    ensures v.end == Composer.EndLabel(e, localized)
    ensures e.current ==> v.end == "Present"
    ensures !e.current ==> v.end == Composer.FormatDate(e.endDate.GetOr(""), localized)
    ensures v.description.Some? <==> HasText(e.description)
    ensures v.heading == Escape(t, e.heading) && v.organisation == Escape(t, e.organisation)
    ensures v.description.Some? ==> v.description.value == Escape(t, e.description.value)
  {
    EntryView(
      Escape(t, e.heading), Escape(t, e.organisation),
      Composer.FormatDate(e.startDate, localized), Composer.EndLabel(e, localized),
      if HasText(e.description) then Some(Escape(t, e.description.value)) else None)
  }

  function ViewEntries(t: Table, es: seq<Entry>, localized: string -> string): (vs: seq<EntryView>)
    ensures |vs| == |es|
    ensures forall i :: 0 <= i < |es| ==> vs[i] == ViewEntry(t, es[i], localized)
  {
    if es == [] then [] else [ViewEntry(t, es[0], localized)] + ViewEntries(t, es[1..], localized)
  }

  function EscapeAll(t: Table, xs: seq<string>): (ys: seq<string>)
    ensures |ys| == |xs|
    ensures forall i :: 0 <= i < |xs| ==> ys[i] == Escape(t, xs[i])
  {
    if xs == [] then [] else [Escape(t, xs[0])] + EscapeAll(t, xs[1..])
  }

  /** What the profile template interpolates: the name in the title and
      heading, its halves in the name meta tags, the username in the page's
      URLs, the header's optional title, location and bio lines, and the
      section fragments. */
  datatype Page = Page(
    name: string,
    firstName: string,
    lastName: string,
    username: string,
    title: Option<string>,
    location: Option<string>,
    bio: Option<string>,
    sections: seq<string>,
    contact: seq<Contact.Link>,
    experience: seq<EntryView>,
    education: seq<EntryView>,
    skills: seq<string>)

  /** The sections the page shows, always in the order header, contact,
      experience, education, skills: a fragment is empty when its data
      is. */
  function ServerSections(p: Profile): (tokens: seq<string>)
    ensures |tokens| >= 1 && tokens[0] == HeaderToken
    ensures ContactToken in tokens <==> HasContact(p)
    ensures ExperienceToken in tokens <==> |p.experience| > 0
    ensures EducationToken in tokens <==> |p.education| > 0
    ensures SkillsToken in tokens <==> |p.skills| > 0
  {
    [HeaderToken]
    + ((if HasContact(p) then [ContactToken] else [])
    + ((if |p.experience| > 0 then [ExperienceToken] else [])
    + ((if |p.education| > 0 then [EducationToken] else [])
    + (if |p.skills| > 0 then [SkillsToken] else []))))
  }

  /** The server page shows the same sections as the public view does for
      the default order. */
  lemma ServerSectionsAreDefaultSurvivors(p: Profile)
    ensures ServerSections(p) == Composer.Survivors(p, DefaultOrder)
  {
    Composer.SurvivorsOfFive(p, HeaderToken, ContactToken, ExperienceToken, EducationToken, SkillsToken);
    Composer.VisibilityRules(p, HeaderToken);
  }

  /** An optional header line: shown, escaped, only when it has text. */
  function HeaderLine(t: Table, field: Option<string>): (line: Option<string>)
    ensures line.Some? <==> HasText(field)
    ensures line.Some? ==> line.value == Escape(t, field.value)
  {
    if HasText(field) then Some(Escape(t, field.value)) else None
  }

  /** `generateProfileHTML`, built with the given escape table; the
      program renders `RenderPage(AsWritten, …)`. Only the corrected table
      keeps markup out of the name. */
  function RenderPage(t: Table, p: Profile, localized: string -> string): (page: Page)
    ensures page.sections == ServerSections(p)
    ensures page.contact == [] <==> !HasContact(p)
    ensures page.experience == [] <==> p.experience == []
    ensures page.education == [] <==> p.education == []
    ensures page.skills == [] <==> p.skills == []
    ensures forall i :: 0 <= i < |page.name| ==> page.name[i] != '"' && page.name[i] != '\''
    ensures t == Corrected ==> FreeOf(page.name, IsMarkup)
    ensures FreeOf(p.name, IsSpecial) ==> page.name == p.name
    ensures page.name == Escape(t, p.name)
    ensures page.firstName == Escape(t, FirstName(p.name)) && page.lastName == Escape(t, LastName(p.name))
    ensures page.contact == ServerContactLinks(t, p)
    ensures page.experience == ViewEntries(t, p.experience, localized)
    ensures page.education == ViewEntries(t, p.education, localized)
    ensures page.skills == EscapeAll(t, p.skills)
    ensures page.username == Escape(t, p.username)
    ensures page.title.Some? <==> HasText(p.title)
    ensures page.location.Some? <==> HasText(p.location)
    ensures page.bio.Some? <==> HasText(p.bio)
    ensures page.title.Some? ==> page.title.value == Escape(t, p.title.value)
    ensures page.location.Some? ==> page.location.value == Escape(t, p.location.value)
    ensures page.bio.Some? ==> page.bio.value == Escape(t, p.bio.value)
  {
    var name := Escape(t, p.name);
    assert (forall i :: 0 <= i < |name| ==> name[i] != '"' && name[i] != '\'')
      && (t == Corrected ==> FreeOf(name, IsMarkup)) && (FreeOf(p.name, IsSpecial) ==> name == p.name);
    Page(
      name, Escape(t, FirstName(p.name)), Escape(t, LastName(p.name)),
      Escape(t, p.username), HeaderLine(t, p.title), HeaderLine(t, p.location), HeaderLine(t, p.bio),
      ServerSections(p), ServerContactLinks(t, p),
      ViewEntries(t, p.experience, localized), ViewEntries(t, p.education, localized),
      EscapeAll(t, p.skills))
  }

  /** The page the program renders interpolates a `<script>` name raw,
      while the corrected page shows no tag at all. */
  lemma AsWrittenPageLetsTagsThrough(p: Profile, localized: string -> string)
    requires p.name == "<script>"
    ensures RenderPage(AsWritten, p, localized).name == "<script>"
    ensures '<' !in RenderPage(Corrected, p, localized).name
  {
    AsWrittenLetsTagsThrough();
  }

  /** A link whose href and text carry no markup. */
  predicate LinkFreeOfMarkup(l: Contact.Link) {
    FreeOf(l.href, IsMarkup) && FreeOf(l.text, IsMarkup)
  }

  /** An entry whose escaped parts carry no markup (the dates come from the
      locale formatter and are interpolated as they are). */
  predicate EntryFreeOfMarkup(v: EntryView) {
    && FreeOf(v.heading, IsMarkup) && FreeOf(v.organisation, IsMarkup)
    && (v.description.Some? ==> FreeOf(v.description.value, IsMarkup))
  }

  lemma FreeOfAppend(a: string, b: string, bad: char -> bool)
    requires FreeOf(a, bad) && FreeOf(b, bad)
    ensures FreeOf(a + b, bad)
  {
    forall i | 0 <= i < |a + b|
      ensures !bad((a + b)[i])
    {
      if i >= |a| {
        assert (a + b)[i] == b[i - |a|];
      }
    }
  }

  /** The schemes and bases of the contact links carry no markup. */
  lemma LinkBasesFreeOfMarkup()
    ensures FreeOf(Contact.MailtoScheme, IsMarkup) && FreeOf(Contact.HttpsScheme, IsMarkup)
    ensures FreeOf(Contact.GithubBase, IsMarkup) && FreeOf(Contact.LinkedinBase, IsMarkup)
    ensures FreeOf(Contact.TwitterBase, IsMarkup)
  {
  }

  /** Nor do the labels in front of the handles. */
  lemma LinkLabelsFreeOfMarkup()
    ensures FreeOf(Contact.GithubLabel, IsMarkup) && FreeOf(Contact.LinkedinLabel, IsMarkup)
    ensures FreeOf(Contact.TwitterLabel, IsMarkup)
  {
  }

  /** Every link built from a markup-free value is markup-free. */
  lemma MakeLinkFreeOfMarkup(kind: Contact.Kind, v: string)
    requires FreeOf(v, IsMarkup)
    ensures LinkFreeOfMarkup(Contact.MakeLink(kind, v))
  {
    LinkBasesFreeOfMarkup();
    LinkLabelsFreeOfMarkup();
    match kind
    case Email =>
      FreeOfAppend(Contact.MailtoScheme, v, IsMarkup);
    case Website =>
      FreeOfAppend(Contact.HttpsScheme, v, IsMarkup);
    case GitHub =>
      FreeOfAppend(Contact.GithubBase, v, IsMarkup);
      FreeOfAppend(Contact.GithubLabel, v, IsMarkup);
    case LinkedIn =>
      FreeOfAppend(Contact.LinkedinBase, v, IsMarkup);
      FreeOfAppend(Contact.LinkedinLabel, v, IsMarkup);
    case Twitter =>
      FreeOfAppend(Contact.TwitterBase, v, IsMarkup);
      FreeOfAppend(Contact.TwitterLabel, v, IsMarkup);
  }

  /** The corrected contact block carries no markup. */
  lemma ContactLinksFreeOfMarkup(p: Profile)
    ensures forall l :: l in ServerContactLinks(Corrected, p) ==> LinkFreeOfMarkup(l)
  {
    var links := ServerContactLinks(Corrected, p);
    forall l | l in links
      ensures LinkFreeOfMarkup(l)
    {
      var i :| 0 <= i < |links| && links[i] == l;
      var k := Contact.PresentKinds(p)[i];
      MakeLinkFreeOfMarkup(k, Escape(Corrected, Contact.FieldOf(p, k).GetOr("")));
    }
  }

  /** Corrected entries carry no markup in their escaped parts. */
  lemma EntriesFreeOfMarkup(es: seq<Entry>, localized: string -> string)
    ensures forall v :: v in ViewEntries(Corrected, es, localized) ==> EntryFreeOfMarkup(v)
  {
    var vs := ViewEntries(Corrected, es, localized);
    forall v | v in vs
      ensures EntryFreeOfMarkup(v)
    {
      var i :| 0 <= i < |vs| && vs[i] == v;
      assert v == ViewEntry(Corrected, es[i], localized);
    }
  }

  /** Corrected skills carry no markup. */
  lemma SkillsFreeOfMarkup(xs: seq<string>)
    ensures forall s :: s in EscapeAll(Corrected, xs) ==> FreeOf(s, IsMarkup)
  {
    var ys := EscapeAll(Corrected, xs);
    forall s | s in ys
      ensures FreeOf(s, IsMarkup)
    {
      var i :| 0 <= i < |ys| && ys[i] == s;
    }
  }

  /** With the corrected table nothing the page escapes carries markup:
      the names, the username, the header lines, every contact link's
      target and text, every entry's escaped parts and every skill. */
  lemma CorrectedPageHasNoMarkup(p: Profile, localized: string -> string)
    ensures var page := RenderPage(Corrected, p, localized);
      && FreeOf(page.name, IsMarkup) && FreeOf(page.firstName, IsMarkup)
      && FreeOf(page.lastName, IsMarkup) && FreeOf(page.username, IsMarkup)
      && (page.title.Some? ==> FreeOf(page.title.value, IsMarkup))
      && (page.location.Some? ==> FreeOf(page.location.value, IsMarkup))
      && (page.bio.Some? ==> FreeOf(page.bio.value, IsMarkup))
      && (forall l :: l in page.contact ==> LinkFreeOfMarkup(l))
      && (forall v :: v in page.experience ==> EntryFreeOfMarkup(v))
      && (forall v :: v in page.education ==> EntryFreeOfMarkup(v))
      && (forall s :: s in page.skills ==> FreeOf(s, IsMarkup))
  {
    ContactLinksFreeOfMarkup(p);
    EntriesFreeOfMarkup(p.experience, localized);
    EntriesFreeOfMarkup(p.education, localized);
    SkillsFreeOfMarkup(p.skills);
  }

  /** The stored section order plays no part in the server page. */
  lemma PageIgnoresSectionsOrder(t: Table, p: Profile, order: Option<seq<string>>, localized: string -> string)
    ensures RenderPage(t, p.(sectionsOrder := order), localized) == RenderPage(t, p, localized)
  {
    var q := p.(sectionsOrder := order);
    ContactLinksIgnoreOrder(t, p, order);
    assert HasContact(q) == HasContact(p);
    assert ServerSections(q) == ServerSections(p);
  }

  /** The server's contact block depends on the contact fields alone. */
  lemma ContactLinksIgnoreOrder(t: Table, p: Profile, order: Option<seq<string>>)
    ensures ServerContactLinks(t, p.(sectionsOrder := order)) == ServerContactLinks(t, p)
  {
    var q := p.(sectionsOrder := order);
    forall k ensures Contact.FieldOf(q, k) == Contact.FieldOf(p, k) {
    }
    Contact.PresentKindsOfSameFields(q, p);
    var kinds := Contact.PresentKinds(p);
    assert ServerLinksFor(t, q, kinds) == ServerLinksFor(t, p, kinds);
  }

  // ---------------------------------------------------------------------
  // The route

  /** `url.pathname.slice(2)`. */
  function UsernameFromPath(pathname: string): (username: string)
    ensures Text.StartsWith(pathname, "/@") ==> "/@" + username == pathname
    ensures |pathname| <= 2 ==> username == ""
  {
    if |pathname| >= 2 then pathname[2..] else ""
  }

  datatype Response = ProfileResponse(page: Page) | NotFoundResponse(username: string) | ErrorResponse

  function Status(r: Response): (code: nat)
    ensures r.ProfileResponse? <==> code == 200
    ensures r.NotFoundResponse? <==> code == 404
    ensures r.ErrorResponse? <==> code == 500
  {
    match r
    case ProfileResponse(_) => 200
    case NotFoundResponse(_) => 404
    case ErrorResponse => 500
  }

  /** Row `i` holds a public profile under `username`. */
  predicate PublicRow(rows: ProfileStore.Store, i: int, username: string) {
    0 <= i < |rows| && rows[i].username == username && rows[i].isPublic
  }

  /** The `GET /@{username}` handler: a missing or private profile gets the
      404 page, a failing lookup the error page, and a public profile its
      page, built with the given escape table. */
  function Serve(t: Table, rows: ProfileStore.Store, pathname: string, localized: string -> string): (r: Response)
    ensures r.NotFoundResponse? ==> r.username == UsernameFromPath(pathname)
    ensures r.ProfileResponse? ==> exists i :: PublicRow(rows, i, UsernameFromPath(pathname)) && r.page == RenderPage(t, rows[i], localized)
    ensures ProfileStore.Valid(rows) ==> !r.ErrorResponse?
    ensures ProfileStore.Valid(rows) ==> (r.ProfileResponse? <==> exists i :: PublicRow(rows, i, UsernameFromPath(pathname)))
  {
    var username := UsernameFromPath(pathname);
    match ProfileStore.GetProfileByUsername(rows, username)
    case Err(_) => ErrorResponse
    case Ok(None) => NotFoundResponse(username)
    case Ok(Some(p)) =>
      if !p.isPublic then NotFoundResponse(username)
      else
        var i :| 0 <= i < |rows| && rows[i] == p;
        ProfileResponse(RenderPage(t, p, localized))
  }
}

=== FILE: reorder.dfy ===
/** The reorder engine behind both previews' `onDragEnd`. A drag carries two
    identity keys, `active` and `over`, of the form `<type>:<name>`; a drag
    between keys of different types, or without a drop target, changes
    nothing. Otherwise the item is moved with `arrayMove`: removed at its
    old index and re-inserted at the index of the drop target. */
module Reorder {
  import opened Wrappers
  import opened Profiles
  import Text
  import Seqs

  /** `xs` without position `i`. */
  function RemoveAt<T>(xs: seq<T>, i: nat): (r: seq<T>)
    requires i < |xs|
    ensures |r| == |xs| - 1
    ensures forall k :: 0 <= k < i ==> r[k] == xs[k]
    ensures forall k :: i <= k < |r| ==> r[k] == xs[k + 1]
  {
    xs[..i] + xs[i + 1..]
  }

  /** `xs` with `x` inserted so that it lands at position `i`. */
  function InsertAt<T>(xs: seq<T>, i: nat, x: T): (r: seq<T>)
    requires i <= |xs|
    ensures |r| == |xs| + 1 && r[i] == x
    ensures forall k :: 0 <= k < i ==> r[k] == xs[k]
    ensures forall k :: i < k < |r| ==> r[k] == xs[k - 1]
  {
    xs[..i] + [x] + xs[i..]
  }

  /** dnd-kit's `arrayMove(xs, from, to)` for indices in range: take the
      item out at `from` and put it back at `to`. */
  function ArrayMove<T>(xs: seq<T>, from: nat, to: nat): (r: seq<T>)
    requires from < |xs| && to < |xs|
    ensures |r| == |xs|
    ensures r[to] == xs[from]
    ensures RemoveAt(r, to) == RemoveAt(xs, from)
  {
    var r := InsertAt(RemoveAt(xs, from), to, xs[from]);
    assert RemoveAt(r, to) == RemoveAt(xs, from);
    r
  }

  /** Putting an item back where it was taken out restores the sequence. */
  lemma InsertWhereRemoved<T>(xs: seq<T>, i: nat)
    requires i < |xs|
    ensures InsertAt(RemoveAt(xs, i), i, xs[i]) == xs
  {
  }

  /** A move is a permutation: every item keeps its multiplicity. */
  lemma ArrayMoveIsPermutation<T>(xs: seq<T>, from: nat, to: nat)
    requires from < |xs| && to < |xs|
    ensures multiset(ArrayMove(xs, from, to)) == multiset(xs)
  {
    var rest := RemoveAt(xs, from);
    assert xs == xs[..from] + [xs[from]] + xs[from + 1..];
    assert multiset(xs) == multiset(rest) + multiset{xs[from]};
    var r := ArrayMove(xs, from, to);
    assert r == InsertAt(rest, to, xs[from]);
    assert r == rest[..to] + [xs[from]] + rest[to..];
    assert rest == rest[..to] + rest[to..];
  }

  /** The move index by index: the moved item lands at `to`, the items
      between the two positions shift by one towards `from`, and every other
      item stays where it was. */
  lemma ArrayMoveShifts<T>(xs: seq<T>, from: nat, to: nat, k: nat)
    requires from < |xs| && to < |xs| && k < |xs|
    ensures ArrayMove(xs, from, to)[k] ==
      if k == to then xs[from]
      else if from <= k < to then xs[k + 1]
      else if to < k <= from then xs[k - 1]
      else xs[k]
  {
  }

  /** Moving an item from `i` to `j` and then from `j` back to `i` gives the
      original order. */
  lemma ArrayMoveInverse<T>(xs: seq<T>, i: nat, j: nat)
    requires i < |xs| && j < |xs|
    ensures ArrayMove(ArrayMove(xs, i, j), j, i) == xs
  {
    var r := ArrayMove(xs, i, j);
    InsertWhereRemoved(xs, i);
    assert ArrayMove(r, j, i) == InsertAt(RemoveAt(r, j), i, r[j]);
  }

  /** Moving the third of ["Go", "Rust", "TS"] to the front. */
  lemma MoveToFrontExample()
    ensures ArrayMove(["Go", "Rust", "TS"], 2, 0) == ["TS", "Go", "Rust"]
  {
    var r := ArrayMove(["Go", "Rust", "TS"], 2, 0);
    assert r[0] == "TS";
    ArrayMoveShifts(["Go", "Rust", "TS"], 2, 0, 1);
    ArrayMoveShifts(["Go", "Rust", "TS"], 2, 0, 2);
  }

  /** The type of an identity key: `String(id).split(":")[0]`, the text
      before the first colon, or the whole key when it has none. */
  function KeyType(key: string): string {
    Text.Split(key, ':')[0]
  }

  /** A key built from a type without colons has that type, whatever the
      name after the colon holds. */
  lemma KeyTypeOfKey(kind: string, name: string)
    requires ':' !in kind
    ensures KeyType(kind + ":" + name) == kind
  {
    Text.SplitAtFirst(kind, ':', name);
    assert kind + ":" + name == kind + [':'] + name;
  }

  const SectionType: string := "section"
  const ExperienceType: string := "exp"
  const EducationType: string := "edu"
  const SkillType: string := "skill"

  /** `names.map((s) => `${kind}:${s}`)`. */
  function Keys(kind: string, names: seq<string>): (keys: seq<string>)
    ensures |keys| == |names|
    ensures forall i :: 0 <= i < |names| ==> keys[i] == kind + ":" + names[i]
  {
    seq(|names|, i requires 0 <= i < |names| => kind + ":" + names[i])
  }

  function EntryIds(entries: seq<Entry>): (ids: seq<string>)
    ensures |ids| == |entries|
    ensures forall i :: 0 <= i < |entries| ==> ids[i] == entries[i].id
  {
    seq(|entries|, i requires 0 <= i < |entries| => entries[i].id)
  }

  /** Two lookups that match at the same positions find the same index. */
  lemma {:induction false} IndexOfAgrees(xs: seq<string>, x: string, ys: seq<string>, y: string)
    requires |xs| == |ys|
    requires forall i :: 0 <= i < |xs| ==> (xs[i] == x <==> ys[i] == y)
    ensures Seqs.IndexOf(xs, x) == Seqs.IndexOf(ys, y)
  {
    if xs != [] {
      IndexOfAgrees(xs[1..], x, ys[1..], y);
    }
  }

  /** Looking a prefixed key up among prefixed keys finds the first
      position of the bare name. */
  lemma IndexOfKey(kind: string, names: seq<string>, name: string)
    ensures Seqs.IndexOf(Keys(kind, names), kind + ":" + name) == Seqs.IndexOf(names, name)
  {
    var keys := Keys(kind, names);
    var prefix := kind + ":";
    forall i | 0 <= i < |names|
      ensures keys[i] == prefix + name <==> names[i] == name
    {
      assert keys[i] == prefix + names[i];
      if keys[i] == prefix + name {
        assert names[i] == keys[i][|prefix|..];
      }
    }
    IndexOfAgrees(keys, prefix + name, names, name);
  }

  /** A drag between keys built from two present names of one type: both
      keys have that type and are found where the names are. */
  lemma KeyedDrag(kind: string, names: seq<string>, a: string, b: string)
    requires ':' !in kind && a in names && b in names
    ensures KeyType(kind + ":" + a) == kind && KeyType(kind + ":" + b) == kind
    ensures Seqs.IndexOf(Keys(kind, names), kind + ":" + a) == Seqs.IndexOf(names, a)
    ensures Seqs.IndexOf(Keys(kind, names), kind + ":" + b) == Seqs.IndexOf(names, b)
  {
    KeyTypeOfKey(kind, a);
    KeyTypeOfKey(kind, b);
    IndexOfKey(kind, names, a);
    IndexOfKey(kind, names, b);
  }

  /** The shared step of every reorder branch: find both keys in the key
      list and move the item, or do nothing when either is missing. */
  function MoveByKey<T>(items: seq<T>, keys: seq<string>, active: string, over: string): (r: Option<seq<T>>)
    requires |keys| == |items|
    ensures r.Some? <==> active in keys && over in keys
    ensures r.Some? ==>
      var from := Seqs.IndexOf(keys, active);
      var to := Seqs.IndexOf(keys, over);
      && 0 <= from < |items| && 0 <= to < |items|
      && r.value == ArrayMove(items, from, to)
      && |r.value| == |items|
      && r.value[to] == items[from]
      && multiset(r.value) == multiset(items)
  {
    var from := Seqs.IndexOf(keys, active);
    var to := Seqs.IndexOf(keys, over);
    if from != -1 && to != -1 then
      ArrayMoveIsPermutation(items, from, to);
      Some(ArrayMove(items, from, to))
    else None
  }

  /** The end of a drag: the key of the dragged item and, unless it was
      dropped outside every target, the key it was dropped on. */
  datatype DragEnd = DragEnd(active: string, over: Option<string>)

  /** Which reorder callbacks the parent passed in. */
  datatype Callbacks = Callbacks(sections: bool, experience: bool, education: bool, skills: bool)

  /** The callback a drag ends up calling, with its new list. */
  datatype Reordered =
    | SectionsReordered(order: seq<string>)
    | ExperienceReordered(entries: seq<Entry>)
    | EducationReordered(entries: seq<Entry>)
    | SkillsReordered(skills: seq<string>)

  /** The identity keys a drag of the given type is looked up in. */
  function KeysOfType(kind: string, order: seq<string>, p: Profile): seq<string> {
    if kind == SectionType then Keys(SectionType, order)
    else if kind == ExperienceType then Keys(ExperienceType, EntryIds(p.experience))
    else if kind == EducationType then Keys(EducationType, EntryIds(p.education))
    else if kind == SkillType then Keys(SkillType, p.skills)
    else []
  }

  /** The parent passed the callback for drags of this type. */
  predicate Handles(kind: string, cb: Callbacks) {
    || (kind == SectionType && cb.sections)
    || (kind == ExperienceType && cb.experience)
    || (kind == EducationType && cb.education)
    || (kind == SkillType && cb.skills)
  }

  /** `items` after moving the item at the first index of `active` among
      `keys` to the first index of `over`, both keys being present. */
  predicate MovedBy<T(==)>(items: seq<T>, keys: seq<string>, active: string, over: string, next: seq<T>) {
    var from := Seqs.IndexOf(keys, active);
    var to := Seqs.IndexOf(keys, over);
    && 0 <= from < |items| && 0 <= to < |items|
    && next == ArrayMove(items, from, to)
  }

  /** The drag handler of `src/components/profile-preview.tsx`, where
      sections, experience entries, education entries and skills are all
      sortable. A callback fires exactly when the drag has a target of the
      same type, the parent handles that type and both keys are found; it
      receives the list with the dragged item moved to the target's index. */
  function NestedDragEnd(ev: DragEnd, order: seq<string>, p: Profile, cb: Callbacks): (r: Option<Reordered>)
    ensures ev.over.None? ==> r.None?
    ensures ev.over.Some? && KeyType(ev.active) != KeyType(ev.over.value) ==> r.None?
    ensures r.Some? ==> ev.over.Some? && KeyType(ev.active) == KeyType(ev.over.value)
    ensures r.Some? <==>
      && ev.over.Some? && KeyType(ev.active) == KeyType(ev.over.value)
      && Handles(KeyType(ev.active), cb)
      && ev.active in KeysOfType(KeyType(ev.active), order, p)
      && ev.over.value in KeysOfType(KeyType(ev.active), order, p)
    ensures r.Some? && r.value.SectionsReordered? ==>
      ev.over.Some? && MovedBy(order, Keys(SectionType, order), ev.active, ev.over.value, r.value.order)
    ensures r.Some? && r.value.ExperienceReordered? ==>
      ev.over.Some? && MovedBy(p.experience, Keys(ExperienceType, EntryIds(p.experience)), ev.active, ev.over.value, r.value.entries)
    ensures r.Some? && r.value.EducationReordered? ==>
      ev.over.Some? && MovedBy(p.education, Keys(EducationType, EntryIds(p.education)), ev.active, ev.over.value, r.value.entries)
    ensures r.Some? && r.value.SkillsReordered? ==>
      ev.over.Some? && MovedBy(p.skills, Keys(SkillType, p.skills), ev.active, ev.over.value, r.value.skills)
    ensures r.Some? && r.value.SectionsReordered? ==>
      KeyType(ev.active) == SectionType && cb.sections
      && multiset(r.value.order) == multiset(order) && |r.value.order| == |order|
    ensures r.Some? && r.value.ExperienceReordered? ==>
      KeyType(ev.active) == ExperienceType && cb.experience
      && multiset(r.value.entries) == multiset(p.experience)
    ensures r.Some? && r.value.EducationReordered? ==>
      KeyType(ev.active) == EducationType && cb.education
      && multiset(r.value.entries) == multiset(p.education)
    ensures r.Some? && r.value.SkillsReordered? ==>
      KeyType(ev.active) == SkillType && cb.skills
      && multiset(r.value.skills) == multiset(p.skills)
  {
    match ev.over
    case None => None
    case Some(over) =>
      var kind := KeyType(ev.active);
      if kind != KeyType(over) then None
      else if kind == SectionType && cb.sections then
        match MoveByKey(order, Keys(SectionType, order), ev.active, over)
        case Some(next) => Some(SectionsReordered(next))
        case None => None
      else if kind == ExperienceType && cb.experience then
        match MoveByKey(p.experience, Keys(ExperienceType, EntryIds(p.experience)), ev.active, over)
        case Some(next) => Some(ExperienceReordered(next))
        case None => None
      else if kind == EducationType && cb.education then
        match MoveByKey(p.education, Keys(EducationType, EntryIds(p.education)), ev.active, over)
        case Some(next) => Some(EducationReordered(next))
        case None => None
      else if kind == SkillType && cb.skills then
        match MoveByKey(p.skills, Keys(SkillType, p.skills), ev.active, over)
        case Some(next) => Some(SkillsReordered(next))
        case None => None
      else None
  }

  /** The drag handler of `components/profile-preview.tsx`: only sections
      are sortable, every other drag is ignored. */
  function SectionDragEnd(ev: DragEnd, order: seq<string>, cb: Callbacks): (r: Option<Reordered>)
    ensures r.Some? ==> r.value.SectionsReordered? && KeyType(ev.active) == SectionType && cb.sections
    ensures r.Some? ==> ev.over.Some? && KeyType(ev.over.value) == SectionType
    ensures r.Some? ==> multiset(r.value.order) == multiset(order)
  {
    match ev.over
    case None => None
    case Some(over) =>
      var kind := KeyType(ev.active);
      if kind != KeyType(over) then None
      else if kind == SectionType && cb.sections then
        match MoveByKey(order, Keys(SectionType, order), ev.active, over)
        case Some(next) => Some(SectionsReordered(next))
        case None => None
      else None
  }

  /** The two handlers agree on section drags; the sections-only handler
      ignores every other drag. */
  lemma SectionHandlersAgree(ev: DragEnd, order: seq<string>, p: Profile, cb: Callbacks)
    ensures KeyType(ev.active) == SectionType ==> SectionDragEnd(ev, order, cb) == NestedDragEnd(ev, order, p, cb)
    ensures KeyType(ev.active) != SectionType ==> SectionDragEnd(ev, order, cb).None?
  {
  }

  /** Dragging section `a` onto section `b` moves the first `a` of the order
      to the position of the first `b`. */
  lemma SectionDragMovesToken(order: seq<string>, p: Profile, cb: Callbacks, a: string, b: string)
    requires cb.sections && a in order && b in order
    ensures NestedDragEnd(DragEnd(SectionType + ":" + a, Some(SectionType + ":" + b)), order, p, cb)
      == Some(SectionsReordered(ArrayMove(order, Seqs.IndexOf(order, a), Seqs.IndexOf(order, b))))
  {
    var active := SectionType + ":" + a;
    var over := SectionType + ":" + b;
    KeyedDrag(SectionType, order, a, b);
    var r := NestedDragEnd(DragEnd(active, Some(over)), order, p, cb);
    assert r.Some? by {
      assert KeysOfType(SectionType, order, p) == Keys(SectionType, order);
      assert Handles(SectionType, cb);
    }
    assert r.value.SectionsReordered?;
  }

  /** Dragging skill `a` onto skill `b` moves `a` to the position of `b`,
      keeping the other skills in their relative order. */
  lemma SkillDragMovesSkill(order: seq<string>, p: Profile, cb: Callbacks, a: string, b: string)
    requires cb.skills && a in p.skills && b in p.skills
    ensures var r := NestedDragEnd(DragEnd(SkillType + ":" + a, Some(SkillType + ":" + b)), order, p, cb);
      var from := Seqs.IndexOf(p.skills, a);
      var to := Seqs.IndexOf(p.skills, b);
      && r.Some? && r.value.SkillsReordered?
      && r.value.skills[to] == a
      && RemoveAt(r.value.skills, to) == RemoveAt(p.skills, from)
  {
    var active := SkillType + ":" + a;
    var over := SkillType + ":" + b;
    KeyedDrag(SkillType, p.skills, a, b);
    var r := NestedDragEnd(DragEnd(active, Some(over)), order, p, cb);
    assert r.Some? by {
      assert KeysOfType(SkillType, order, p) == Keys(SkillType, p.skills);
      assert Handles(SkillType, cb);
    }
    assert r.value.SkillsReordered?;
  }

  /** Dragging experience entry `a` onto entry `b` (by id) fires the
      experience callback with the first `a` moved to the first `b`'s
      position. */
  lemma ExperienceDragMovesEntry(order: seq<string>, p: Profile, cb: Callbacks, a: string, b: string)
    requires cb.experience
    requires a in EntryIds(p.experience) && b in EntryIds(p.experience)
    ensures var ids := EntryIds(p.experience);
      var from := Seqs.IndexOf(ids, a);
      var to := Seqs.IndexOf(ids, b);
      && NestedDragEnd(DragEnd(ExperienceType + ":" + a, Some(ExperienceType + ":" + b)), order, p, cb)
        == Some(ExperienceReordered(ArrayMove(p.experience, from, to)))
      && ArrayMove(p.experience, from, to)[to].id == a
  {
    var active := ExperienceType + ":" + a;
    var over := ExperienceType + ":" + b;
    KeyedDrag(ExperienceType, EntryIds(p.experience), a, b);
    var r := NestedDragEnd(DragEnd(active, Some(over)), order, p, cb);
    assert r.Some? by {
      assert KeysOfType(ExperienceType, order, p) == Keys(ExperienceType, EntryIds(p.experience));
      assert Handles(ExperienceType, cb);
    }
    assert r.value.ExperienceReordered?;
  }

  /** Dragging education entry `a` onto entry `b` (by id) fires the
      education callback with the first `a` moved to the first `b`'s
      position. */
  lemma EducationDragMovesEntry(order: seq<string>, p: Profile, cb: Callbacks, a: string, b: string)
    requires cb.education
    requires a in EntryIds(p.education) && b in EntryIds(p.education)
    ensures var ids := EntryIds(p.education);
      var from := Seqs.IndexOf(ids, a);
      var to := Seqs.IndexOf(ids, b);
      && NestedDragEnd(DragEnd(EducationType + ":" + a, Some(EducationType + ":" + b)), order, p, cb)
        == Some(EducationReordered(ArrayMove(p.education, from, to)))
      && ArrayMove(p.education, from, to)[to].id == a
  {
    var active := EducationType + ":" + a;
    var over := EducationType + ":" + b;
    KeyedDrag(EducationType, EntryIds(p.education), a, b);
    var r := NestedDragEnd(DragEnd(active, Some(over)), order, p, cb);
    assert r.Some? by {
      assert KeysOfType(EducationType, order, p) == Keys(EducationType, EntryIds(p.education));
      assert Handles(EducationType, cb);
    }
    assert r.value.EducationReordered?;
  }
}

=== FILE: routing.dfy ===
/** Getting from a URL to a profile: the edge middleware that rewrites
    `/@{username}` to the `/u/{username}` page, and the single-page app's
    start-up check that picks the public view from `^/@(.+)$` on the path
    or `\?@(.+)$` on the query string. */
module Routing {
  import opened Wrappers
  import Text
  import PublicPage

  const ProfilePrefix: string := "/@"
  const RewritePrefix: string := "/u/"
  const QueryMarker: string := "?@"

  // ---------------------------------------------------------------------
  // Middleware

  /** What the middleware answers: a rewrite to another pathname, or
      `NextResponse.next()`. */
  datatype Outcome = Rewrite(pathname: string) | Next

  /** Every `/@…` pathname is served by `/u/…` with the remainder kept
      exactly, the empty remainder included; nothing else is touched. */
  function Middleware(pathname: string): (o: Outcome)
    ensures o.Rewrite? <==> Text.StartsWith(pathname, ProfilePrefix)
    ensures o.Rewrite? ==> o.pathname == RewritePrefix + PublicPage.UsernameFromPath(pathname)
    ensures o.Rewrite? ==> ProfilePrefix + o.pathname[|RewritePrefix|..] == pathname
    ensures o.Rewrite? ==> !Text.StartsWith(o.pathname, ProfilePrefix)
  {
    if Text.StartsWith(pathname, ProfilePrefix) then
      var r := RewritePrefix + pathname[2..];
      assert r[|RewritePrefix|..] == pathname[2..];
      assert r[1] == 'u';
      Rewrite(r)
    else Next
  }

  /** The rule does not apply to its own output. */
  lemma {:induction false} MiddlewareOnce(pathname: string)
    requires Middleware(pathname).Rewrite?
    ensures Middleware(Middleware(pathname).pathname) == Next
  {
    var r := Middleware(pathname).pathname;
    assert !Text.StartsWith(r, ProfilePrefix);
  }

  /** `/@` alone is rewritten to `/u/`. */
  lemma BarePrefixRewrites()
    ensures Middleware(ProfilePrefix) == Rewrite(RewritePrefix)
  {
    assert Text.StartsWith(ProfilePrefix, ProfilePrefix);
    assert ProfilePrefix[2..] == [];
    assert RewritePrefix + [] == RewritePrefix;
  }

  // ---------------------------------------------------------------------
  // The app's URL check

  /** `.+$` without the `m` flag: at least one character and no line
      terminator up to the end of the input. */
  predicate DotsToEnd(s: string) {
    |s| >= 1 && forall i :: 0 <= i < |s| ==> !Text.IsLineTerminator(s[i])
  }

  /** `path.match(/^\/@(.+)$/)`, giving the captured username. */
  function PathMatch(path: string): (u: Option<string>)
    ensures u.Some? <==> Text.StartsWith(path, ProfilePrefix) && DotsToEnd(path[2..])
    ensures u.Some? ==> ProfilePrefix + u.value == path && u.value != ""
  {
    if Text.StartsWith(path, ProfilePrefix) && DotsToEnd(path[2..]) then
      assert path == path[..2] + path[2..];
      Some(path[2..])
    else None
  }

  /** `\?@(.+)$` matches at position `j`. */
  predicate MatchesAt(search: string, j: int) {
    0 <= j && j + 2 <= |search| && search[j] == '?' && search[j + 1] == '@' && DotsToEnd(search[j + 2..])
  }

  /** `j` is the leftmost position where the pattern matches. */
  predicate FirstMatch(search: string, j: int) {
    MatchesAt(search, j) && forall k :: 0 <= k < j ==> !MatchesAt(search, k)
  }

  /** The regex engine's scan: the first position from `i` on where the
      unanchored pattern matches. */
  function FirstMatchFrom(search: string, i: nat): (j: Option<nat>)
    requires i <= |search|
    ensures j.Some? ==> i <= j.value && MatchesAt(search, j.value)
    ensures j.Some? ==> forall k :: i <= k < j.value ==> !MatchesAt(search, k)
    ensures j.None? ==> forall k :: i <= k ==> !MatchesAt(search, k)
    decreases |search| - i
  {
    if i == |search| then None
    else if MatchesAt(search, i) then Some(i)
    else FirstMatchFrom(search, i + 1)
  }

  /** `search.match(/\?@(.+)$/)`, giving the captured username: the text
      after the leftmost `?@` from which the pattern reaches the end. */
  function SearchMatch(search: string): (u: Option<string>)
    ensures u.Some? <==> exists j :: MatchesAt(search, j)
    ensures u.Some? ==> exists j :: FirstMatch(search, j) && u.value == search[j + 2..]
  {
    match FirstMatchFrom(search, 0)
    case None => None
    case Some(j) =>
      assert FirstMatch(search, j);
      Some(search[j + 2..])
  }

  /** Without line terminators the username is simply everything after
      the first `?@`. */
  lemma SearchMatchWithoutTerminators(search: string, j: nat)
    requires forall i :: 0 <= i < |search| ==> !Text.IsLineTerminator(search[i])
    requires j + 2 < |search| && search[j] == '?' && search[j + 1] == '@'
    requires forall k :: 0 <= k < j ==> !(search[k] == '?' && search[k + 1] == '@')
    ensures SearchMatch(search) == Some(search[j + 2..])
  {
    assert MatchesAt(search, j);
    assert SearchMatch(search).Some?;
    var m :| FirstMatch(search, m) && SearchMatch(search).value == search[m + 2..];
    assert m == j;
  }

  datatype View = EditorView | PublicView

  /** `currentView` and `publicUsername`. */
  datatype AppState = AppState(view: View, username: string)

  const InitialState: AppState := AppState(EditorView, "")

  /** The start-up effect: a path match wins, then a query match;
      otherwise the editor stays. */
  function Route(path: string, search: string): (st: AppState)
    ensures PathMatch(path).Some? ==> st == AppState(PublicView, PathMatch(path).value)
    ensures PathMatch(path).None? && SearchMatch(search).Some? ==> st == AppState(PublicView, SearchMatch(search).value)
    ensures PathMatch(path).None? && SearchMatch(search).None? ==> st == InitialState
  {
    match PathMatch(path)
    case Some(u) => AppState(PublicView, u)
    case None =>
      match SearchMatch(search)
      case Some(u) => AppState(PublicView, u)
      case None => InitialState
  }

  /** The render gate: the public view with a non-empty username. */
  predicate ShowsPublicProfile(st: AppState) {
    st.view == PublicView && st.username != ""
  }

  /** The public profile shows exactly when the path or the query string
      names a user: every match captures at least one character. */
  lemma PublicIffMatched(path: string, search: string)
    ensures ShowsPublicProfile(Route(path, search)) <==> PathMatch(path).Some? || SearchMatch(search).Some?
    ensures Route(path, search).view == PublicView <==> ShowsPublicProfile(Route(path, search))
  {
    var s := SearchMatch(search);
    if PathMatch(path).None? && s.Some? {
      var j :| FirstMatch(search, j) && s.value == search[j + 2..];
    }
  }

  /** `/@` alone names nobody: the path does not match. */
  lemma BarePrefixDoesNotMatch()
    ensures PathMatch(ProfilePrefix).None?
  {
    assert ProfilePrefix[2..] == [];
  }

  /** Whatever the app reads from a path is what the middleware rewrites to
      and what the server page looks up. */
  lemma PathMatchAgreesWithServer(path: string)
    requires PathMatch(path).Some?
    ensures Middleware(path) == Rewrite(RewritePrefix + PathMatch(path).value)
    ensures PublicPage.UsernameFromPath(path) == PathMatch(path).value
  {
  }
}

=== FILE: seqs.dfy ===
/** Sequence helpers behind `Array.prototype.filter` and `indexOf`. */
module Seqs {

  /** `a` is `b` with some elements left out, the rest in their order. */
  predicate IsSubsequence<T(==)>(a: seq<T>, b: seq<T>) {
    a == [] || (b != [] && ((a[0] == b[0] && IsSubsequence(a[1..], b[1..])) || IsSubsequence(a, b[1..])))
  }

  /** `xs.filter(keep)`: the elements satisfying `keep`, in their order;
      nothing else. Multiplicities and order are in `FilterCounts` and
      `FilterSubsequence`. */
  function Filter<T(==,!new)>(xs: seq<T>, keep: T -> bool): (r: seq<T>)
    ensures |r| <= |xs|
    ensures forall x :: x in r <==> x in xs && keep(x)
  {
    if xs == [] then []
    else
      var rest := Filter(xs[1..], keep);
      assert forall x :: x in xs <==> x == xs[0] || x in xs[1..];
      if keep(xs[0]) then [xs[0]] + rest else rest
  }

  /** A kept element occurs as often as in the input; a dropped one not
      at all. */
  lemma {:induction false} FilterCounts<T(!new)>(xs: seq<T>, keep: T -> bool)
    ensures forall x :: keep(x) ==> multiset(Filter(xs, keep))[x] == multiset(xs)[x]
    ensures forall x :: !keep(x) ==> multiset(Filter(xs, keep))[x] == 0
  {
    if xs != [] {
      FilterCounts(xs[1..], keep);
      assert xs == [xs[0]] + xs[1..];
      FilterCons(xs[0], xs[1..], keep);
      assert multiset(xs) == multiset{xs[0]} + multiset(xs[1..]);
    }
  }

  /** The filter's output is the input with elements left out, the rest
      in their order. */
  lemma {:induction false} FilterSubsequence<T(!new)>(xs: seq<T>, keep: T -> bool)
    ensures IsSubsequence(Filter(xs, keep), xs)
  {
    if xs != [] {
      FilterSubsequence(xs[1..], keep);
      var rest := Filter(xs[1..], keep);
      if keep(xs[0]) {
        assert Filter(xs, keep) == [xs[0]] + rest;
        assert ([xs[0]] + rest)[1..] == rest;
      }
    }
  }

  /** One step of the filter: the head is kept or dropped, then the tail
      is filtered. */
  lemma FilterCons<T(!new)>(x: T, xs: seq<T>, keep: T -> bool)
    ensures Filter([x] + xs, keep) == Kept(x, keep) + Filter(xs, keep)
  {
    assert ([x] + xs)[1..] == xs;
  }

  /** What the filter keeps of one element. */
  function Kept<T>(x: T, keep: T -> bool): seq<T> {
    if keep(x) then [x] else []
  }

  /** The filter over a five-element sequence, one element at a time. */
  lemma FilterOfFive<T(!new)>(a: T, b: T, c: T, d: T, e: T, keep: T -> bool)
    ensures Filter([a, b, c, d, e], keep)
      == Kept(a, keep) + (Kept(b, keep) + (Kept(c, keep) + (Kept(d, keep) + Kept(e, keep))))
  {
    FilterCons(e, [], keep);
    assert [e] + [] == [e];
    FilterCons(d, [e], keep);
    assert [d] + [e] == [d, e];
    FilterCons(c, [d, e], keep);
    assert [c] + [d, e] == [c, d, e];
    FilterCons(b, [c, d, e], keep);
    assert [b] + [c, d, e] == [b, c, d, e];
    FilterCons(a, [b, c, d, e], keep);
    assert [a] + [b, c, d, e] == [a, b, c, d, e];
  }

  /** Filtering distributes over concatenation. */
  lemma {:induction false} FilterAppend<T(!new)>(a: seq<T>, b: seq<T>, keep: T -> bool)
    ensures Filter(a + b, keep) == Filter(a, keep) + Filter(b, keep)
  {
    if a != [] {
      var head := Kept(a[0], keep);
      assert a + b == [a[0]] + (a[1..] + b);
      assert a == [a[0]] + a[1..];
      FilterCons(a[0], a[1..] + b, keep);
      FilterCons(a[0], a[1..], keep);
      FilterAppend(a[1..], b, keep);
      assert Filter(a + b, keep) == head + (Filter(a[1..], keep) + Filter(b, keep));
    } else {
      assert a + b == b;
    }
  }

  lemma AppendAssoc<T>(a: seq<T>, b: seq<T>, c: seq<T>)
    ensures a + (b + c) == (a + b) + c
  {
  }

  /** Filters whose predicates agree on the elements keep the same
      elements. */
  lemma {:induction false} FilterAgree<T(!new)>(xs: seq<T>, f: T -> bool, g: T -> bool)
    requires forall x :: x in xs ==> f(x) == g(x)
    ensures Filter(xs, f) == Filter(xs, g)
  {
    if xs != [] {
      assert forall x :: x in xs[1..] ==> x in xs;
      FilterAgree(xs[1..], f, g);
    }
  }

  /** `xs.indexOf(x)`: the first position holding `x`, or -1. */
  function IndexOf<T(==)>(xs: seq<T>, x: T): (i: int)
    ensures i == -1 <==> x !in xs
    ensures i != -1 ==> 0 <= i < |xs| && xs[i] == x && x !in xs[..i]
  {
    if xs == [] then -1
    else if xs[0] == x then 0
    else
      var k := IndexOf(xs[1..], x);
      if k == -1 then -1
      else
        assert xs[..k + 1] == [xs[0]] + xs[1..][..k];
        k + 1
  }
}

=== FILE: setup.dfy ===
/** The username-claim form shown to a signed-in user without a profile.
    Its state is the form text, whether an availability check is in
    flight, and the last availability answer (`true`, `false` or `null`).
    The reactive availability query becomes an explicit "result arrived"
    event; submitting either refuses with a message or sends
    `createProfile` the form. */
module ClaimWorkflow {
  import opened Wrappers
  import ProfileStore
  import Text

  datatype SetupForm = SetupForm(
    username: string,
    name: string,
    title: string,
    location: string,
    bio: string,
    email: string,
    website: string,
    github: string,
    linkedin: string,
    twitter: string)

  /** The form, `isCheckingUsername`, and `usernameAvailable` (`None` for
      `null`). */
  datatype Claim = Claim(form: SetupForm, checking: bool, available: Option<bool>)

  /** Shorter usernames are not sent to the availability query. Lengths
      are JavaScript's `length`, in UTF-16 code units. */
  const MinQueryLength: nat := 3

  const BlankForm: SetupForm := SetupForm("", "", "", "", "", "", "", "", "", "")

  function Initial(): (c: Claim)
    ensures c.form.username == "" && !c.checking && c.available.None?
  {
    Claim(BlankForm, false, None)
  }

  /** The availability query's arguments: the username once it is at least
      three characters long, otherwise `"skip"` (`None`). */
  function QueryArgs(c: Claim): (q: Option<string>)
    ensures q.Some? <==> Text.Utf16Length(c.form.username) >= MinQueryLength
    ensures q.Some? ==> q.value == c.form.username
  {
    if Text.Utf16Length(c.form.username) >= MinQueryLength then Some(c.form.username) else None
  }

  /** `handleUsernameChange`: the text changes; a long enough username
      starts a check; the previous answer is kept. */
  function EditUsername(c: Claim, username: string): (r: Claim)
    ensures r.form == c.form.(username := username)
    ensures r.available == c.available
    ensures r.checking == (Text.Utf16Length(username) >= MinQueryLength || c.checking)
  {
    Claim(c.form.(username := username), if Text.Utf16Length(username) >= MinQueryLength then true else c.checking, c.available)
  }

  /** "a" followed by an emoji is three UTF-16 code units long, so it is
      long enough to be queried even though it has two characters. */
  lemma AstralUsernameIsQueried(c: Claim)
    requires c.form.username == "a\U{1F600}"
    ensures |c.form.username| == 2
    ensures QueryArgs(c) == Some(c.form.username)
  {
    var u := c.form.username;
    assert u[1..][1..] == [];
    assert Text.Utf16Length(u[1..]) == 2;
  }

  /** Typing in the name field. */
  function EditName(c: Claim, name: string): (r: Claim)
    ensures r.form == c.form.(name := name)
    ensures r.checking == c.checking && r.available == c.available
  {
    c.(form := c.form.(name := name))
  }

  /** The effect that runs when the query result changes: the answer is
      stored and the check is over. */
  function ResultArrived(c: Claim, available: bool): (r: Claim)
    ensures r.form == c.form && r.available == Some(available) && !r.checking
  {
    Claim(c.form, false, Some(available))
  }

  /** What submitting does. */
  datatype SubmitOutcome = Refused(message: string) | SendCreate(args: ProfileStore.CreateArgs)

  const MissingFieldsMessage: string := "Username and name are required"
  const UnavailableMessage: string := "Username is not available"

  /** The form as `createProfile` receives it: every field, the empty ones
      as empty strings. */
  function CreateArgsOf(f: SetupForm): (a: ProfileStore.CreateArgs)
    ensures a.username == f.username && a.name == f.name
    ensures a.title == Some(f.title) && a.bio == Some(f.bio) && a.email == Some(f.email)
    ensures a.location == Some(f.location) && a.website == Some(f.website)
    ensures a.github == Some(f.github) && a.linkedin == Some(f.linkedin) && a.twitter == Some(f.twitter)
  {
    ProfileStore.CreateArgs(f.username, f.name, Some(f.title), Some(f.location), Some(f.bio),
      Some(f.email), Some(f.website), Some(f.github), Some(f.linkedin), Some(f.twitter))
  }

  /** `handleSubmit`: missing username or name is reported first, then an
      answer other than `true`; otherwise the form is sent. */
  function Submit(c: Claim): (o: SubmitOutcome)
    ensures (c.form.username == "" || c.form.name == "") ==> o == Refused(MissingFieldsMessage)
    ensures c.form.username != "" && c.form.name != "" && c.available != Some(true) ==> o == Refused(UnavailableMessage)
    ensures o.SendCreate? <==> c.form.username != "" && c.form.name != "" && c.available == Some(true)
    ensures o.SendCreate? ==> o.args == CreateArgsOf(c.form)
  {
    if c.form.username == "" || c.form.name == "" then Refused(MissingFieldsMessage)
    else if c.available != Some(true) then Refused(UnavailableMessage)
    else SendCreate(CreateArgsOf(c.form))
  }

  /** The submit button's `disabled` attribute: an enabled button sends
      the form as it stands. */
  predicate SubmitDisabled(c: Claim): (disabled: bool)
    ensures disabled <==> Submit(c).Refused?
    ensures !disabled ==> Submit(c) == SendCreate(CreateArgsOf(c.form))
  {
    c.form.username == "" || c.form.name == "" || c.available != Some(true)
  }

  /** The button is disabled exactly when submitting would be refused. */
  lemma DisabledIffRefused(c: Claim)
    ensures SubmitDisabled(c) <==> Submit(c).Refused?
  {
  }

  /** The line under the username field. */
  function StatusMessage(c: Claim): (m: Option<string>)
    ensures m.Some? <==> Text.Utf16Length(c.form.username) >= MinQueryLength && !c.checking
    ensures m == Some("Username available") <==> Text.Utf16Length(c.form.username) >= MinQueryLength && !c.checking && c.available == Some(true)
  {
    if Text.Utf16Length(c.form.username) >= MinQueryLength && !c.checking then
      Some(if c.available == Some(true) then "Username available" else "Username taken")
    else None
  }

  /** The icon inside the username field. */
  datatype Indicator = NoIndicator | Spinner | Tick | Cross

  function IndicatorOf(c: Claim): (i: Indicator)
    ensures i == NoIndicator <==> Text.Utf16Length(c.form.username) < MinQueryLength
    ensures i == Spinner <==> Text.Utf16Length(c.form.username) >= MinQueryLength && c.checking
    ensures i == Tick ==> StatusMessage(c) == Some("Username available")
    ensures i == Cross ==> StatusMessage(c) == Some("Username taken")
  {
    if Text.Utf16Length(c.form.username) < MinQueryLength then NoIndicator
    else if c.checking then Spinner
    else if c.available == Some(true) then Tick
    else Cross
  }

  /** As written, the gate trusts an answer about an earlier username:
      after "alice" is reported free, shortening the name to "al" (which is
      never queried) and filling in a name sends `createProfile` with
      "al". */
  lemma StaleAnswerPassesGate()
    ensures var c := EditName(EditUsername(ResultArrived(EditUsername(Initial(), "alice"), true), "al"), "Al");
      && QueryArgs(c).None?
      && Submit(c) == SendCreate(CreateArgsOf(c.form))
      && c.form.username == "al"
  {
  }

  // The corrected workflow: an answer is remembered together with the
  // username it was computed for, and only an answer for the current
  // username opens the gate.

  /** The claim state plus the username the stored answer belongs to. */
  datatype TrackedClaim = TrackedClaim(form: SetupForm, checking: bool, available: Option<bool>, answeredFor: Option<string>)

  /** Only queried usernames ever get an answer. */
  predicate Consistent(c: TrackedClaim) {
    c.answeredFor.Some? ==> Text.Utf16Length(c.answeredFor.value) >= MinQueryLength && c.available.Some?
  }

  function TrackedInitial(): (c: TrackedClaim)
    ensures Consistent(c) && c.answeredFor.None?
  {
    TrackedClaim(BlankForm, false, None, None)
  }

  function TrackedEditUsername(c: TrackedClaim, username: string): (r: TrackedClaim)
    ensures r.form == c.form.(username := username)
    ensures r.available == c.available && r.answeredFor == c.answeredFor
    ensures r.checking == (Text.Utf16Length(username) >= MinQueryLength || c.checking)
    ensures Consistent(c) ==> Consistent(r)
  {
    c.(form := c.form.(username := username), checking := if Text.Utf16Length(username) >= MinQueryLength then true else c.checking)
  }

  function TrackedEditName(c: TrackedClaim, name: string): (r: TrackedClaim)
    ensures r == c.(form := c.form.(name := name))
    ensures Consistent(c) ==> Consistent(r)
  {
    c.(form := c.form.(name := name))
  }

  /** The query's arguments, as for the plain claim. */
  function TrackedQueryArgs(c: TrackedClaim): Option<string> {
    QueryArgs(Claim(c.form, c.checking, c.available))
  }

  /** An answer for `username` is taken only while that username is what
      the query is asking about; a late answer for another is dropped. */
  function TrackedResultArrived(c: TrackedClaim, username: string, available: bool): (r: TrackedClaim)
    ensures TrackedQueryArgs(c) == Some(username) ==> r == TrackedClaim(c.form, false, Some(available), Some(username))
    ensures TrackedQueryArgs(c) != Some(username) ==> r == c
    ensures Consistent(c) ==> Consistent(r)
  {
    if Text.Utf16Length(c.form.username) >= MinQueryLength && username == c.form.username then
      TrackedClaim(c.form, false, Some(available), Some(username))
    else c
  }

  /** The corrected gate: same messages, same order, but the answer must be
      about the username being submitted. */
  function TrackedSubmit(c: TrackedClaim): (o: SubmitOutcome)
    ensures (c.form.username == "" || c.form.name == "") ==> o == Refused(MissingFieldsMessage)
    ensures o.SendCreate? <==> (c.form.username != "" && c.form.name != ""
      && c.available == Some(true) && c.answeredFor == Some(c.form.username))
    ensures o.SendCreate? ==> o.args == CreateArgsOf(c.form)
  {
    if c.form.username == "" || c.form.name == "" then Refused(MissingFieldsMessage)
    else if c.available != Some(true) || c.answeredFor != Some(c.form.username) then Refused(UnavailableMessage)
    else SendCreate(CreateArgsOf(c.form))
  }

  /** Soundness of the corrected gate: whatever is sent was queried and
      reported free under exactly that name. */
  lemma TrackedGateSound(c: TrackedClaim)
    requires Consistent(c)
    requires TrackedSubmit(c).SendCreate?
    ensures Text.Utf16Length(c.form.username) >= MinQueryLength
    ensures c.answeredFor == Some(TrackedSubmit(c).args.username) && c.available == Some(true)
  {
  }

  /** The stale-answer sequence is refused by the corrected gate. */
  lemma TrackedRefusesStaleAnswer()
    ensures var c := TrackedEditName(TrackedEditUsername(TrackedResultArrived(TrackedEditUsername(TrackedInitial(), "alice"), "alice", true), "al"), "Al");
      TrackedSubmit(c) == Refused(UnavailableMessage)
  {
  }

  /** When the answer does belong to the current username, both gates
      agree. */
  lemma GatesAgreeOnFreshAnswer(c: TrackedClaim)
    requires c.answeredFor == Some(c.form.username)
    ensures TrackedSubmit(c) == Submit(Claim(c.form, c.checking, c.available))
  {
  }

  /** An answer computed from the store for the current username, followed
      by an immediate submit, leads to a create the store accepts (for a
      caller without a profile). */
  lemma FreshAnswerCreates(c: TrackedClaim, rows: ProfileStore.Store, userId: string)
    requires ProfileStore.Valid(rows)
    requires Text.Utf16Length(c.form.username) >= MinQueryLength && c.form.name != ""
    requires forall i :: 0 <= i < |rows| ==> rows[i].userId != userId
    requires ProfileStore.CheckUsernameAvailable(rows, c.form.username) == Ok(true)
    ensures var r := TrackedResultArrived(c, c.form.username, true);
      && TrackedSubmit(r).SendCreate?
      && ProfileStore.CreateProfile(rows, Some(userId), TrackedSubmit(r).args).Ok?
  {
    var r := TrackedResultArrived(c, c.form.username, true);
    ProfileStore.AvailableThenCreateSucceeds(rows, userId, TrackedSubmit(r).args);
  }
}

=== FILE: store.dfy ===
/** The `profiles` table and the five Convex functions over it. Each
    mutation is one atomic step from a store to a store; a query returns a
    value and no store. Rows are addressed by their position, which plays
    the part of the document id. The authenticated user (`getAuthUserId`)
    is an input. */
module ProfileStore {
  import opened Wrappers
  import opened Profiles

  type Store = seq<Profile>
  type ProfileId = nat

  /** The errors the handlers throw, plus the one `.unique()` throws when an
      index lookup finds more than one row. */
  datatype StoreError = NotAuthenticated | UsernameTaken | AlreadyHasProfile | ProfileNotFound | NotUnique

  /** The messages the handlers throw with (the database supplies its own
      for `NotUnique`). */
  function Message(e: StoreError): (m: string)
    requires !e.NotUnique?
    ensures m != ""
  {
    match e
    case NotAuthenticated => "Not authenticated"
    case UsernameTaken => "Username already taken"
    case AlreadyHasProfile => "User already has a profile"
    case ProfileNotFound => "Profile not found"
  }

  /** The two indexes: `by_user` and `by_username`. */
  datatype Key = ByUser(userId: UserId) | ByUsername(username: string)

  predicate Matches(p: Profile, key: Key) {
    match key
    case ByUser(u) => p.userId == u
    case ByUsername(n) => p.username == n
  }

  /** `.withIndex(...).unique()`: no row gives `null`, one row gives its id,
      more than one throws. */
  function Lookup(rows: Store, key: Key): (r: Result<Option<ProfileId>, StoreError>)
    ensures r == Ok(None) <==> forall i :: 0 <= i < |rows| ==> !Matches(rows[i], key)
    ensures r.Ok? && r.value.Some? ==>
      && r.value.value < |rows| && Matches(rows[r.value.value], key)
      && forall j :: 0 <= j < |rows| && j != r.value.value ==> !Matches(rows[j], key)
    ensures r.Err? ==> (r.error == NotUnique &&
      exists i, j :: 0 <= i < j < |rows| && Matches(rows[i], key) && Matches(rows[j], key))
    ensures (exists i :: 0 <= i < |rows| && Matches(rows[i], key)) ==> r != Ok(None)
  {
    if rows == [] then Ok(None)
    else
      var n := |rows| - 1;
      var prev := Lookup(rows[..n], key);
      if !Matches(rows[n], key) then prev
      else match prev
        case Err(e) => Err(e)
        case Ok(None) => Ok(Some(n))
        case Ok(Some(i)) => assert Matches(rows[i], key); Err(NotUnique)
  }

  /** The invariants the mutations keep: usernames are unique and every
      user owns at most one profile. */
  predicate Valid(rows: Store) {
    forall i, j :: 0 <= i < j < |rows| ==> rows[i].username != rows[j].username && rows[i].userId != rows[j].userId
  }

  /** In a valid store no index lookup throws. */
  lemma ValidLookupIsUnique(rows: Store, key: Key)
    requires Valid(rows)
    ensures Lookup(rows, key).Ok?
  {
  }

  /** The arguments of `createProfile`. */
  datatype CreateArgs = CreateArgs(
    username: string,
    name: string,
    title: Option<string>,
    location: Option<string>,
    bio: Option<string>,
    email: Option<string>,
    website: Option<string>,
    github: Option<string>,
    linkedin: Option<string>,
    twitter: Option<string>)

  /** The row `createProfile` inserts: the arguments verbatim, no entries,
      no skills, no stored order, not public. */
  function NewProfile(userId: UserId, args: CreateArgs): (p: Profile)
    ensures p.userId == userId && p.username == args.username && p.name == args.name
    ensures p.experience == [] && p.education == [] && p.skills == []
    ensures p.sectionsOrder.None? && !p.isPublic
    ensures p.title == args.title && p.location == args.location && p.bio == args.bio
    ensures p.email == args.email && p.website == args.website && p.github == args.github
    ensures p.linkedin == args.linkedin && p.twitter == args.twitter
  {
    Profile(userId, args.username, args.name, args.title, args.location, args.bio,
      args.email, args.website, args.github, args.linkedin, args.twitter,
      [], [], [], None, false)
  }

  /** `createProfile`: authentication first, then the username, then the
      one-profile-per-user rule; on success exactly one row is appended. */
  function CreateProfile(rows: Store, auth: Option<UserId>, args: CreateArgs): (r: Result<(Store, ProfileId), StoreError>)
    ensures auth.None? ==> r == Err(NotAuthenticated)
    ensures r.Ok? <==> (auth.Some?
      && (forall i :: 0 <= i < |rows| ==> rows[i].username != args.username)
      && (forall i :: 0 <= i < |rows| ==> rows[i].userId != auth.value))
    ensures r.Ok? ==> r.value.0 == rows + [NewProfile(auth.value, args)] && r.value.1 == |rows|
    ensures Valid(rows) && auth.Some? && (exists i :: 0 <= i < |rows| && rows[i].username == args.username)
      ==> r == Err(UsernameTaken)
    ensures Valid(rows) && auth.Some? && (forall i :: 0 <= i < |rows| ==> rows[i].username != args.username)
      && (exists i :: 0 <= i < |rows| && rows[i].userId == auth.value)
      ==> r == Err(AlreadyHasProfile)
  {
    if auth.None? then Err(NotAuthenticated)
    else
      var userId := auth.value;
      match Lookup(rows, ByUsername(args.username))
      case Err(e) => Err(e)
      case Ok(Some(_)) => Err(UsernameTaken)
      case Ok(None) =>
        match Lookup(rows, ByUser(userId))
        case Err(e) => Err(e)
        case Ok(Some(_)) => Err(AlreadyHasProfile)
        case Ok(None) => Ok((rows + [NewProfile(userId, args)], |rows|))
  }

  /** A successful create keeps both uniqueness invariants. */
  lemma CreatePreservesValid(rows: Store, auth: Option<UserId>, args: CreateArgs)
    requires Valid(rows)
    ensures CreateProfile(rows, auth, args).Ok? ==> Valid(CreateProfile(rows, auth, args).value.0)
  {
  }

  /** The arguments of `updateProfile`: everything the editor saves, but
      not the username, the owner or the section order. */
  datatype UpdateArgs = UpdateArgs(
    name: string,
    title: Option<string>,
    location: Option<string>,
    bio: Option<string>,
    email: Option<string>,
    website: Option<string>,
    github: Option<string>,
    linkedin: Option<string>,
    twitter: Option<string>,
    experience: seq<Entry>,
    education: seq<Entry>,
    skills: seq<string>,
    isPublic: bool)

  /** `ctx.db.patch(profile._id, { ...args })`: every listed field
      overwritten (an absent optional field is cleared), the others kept. */
  function Patch(p: Profile, args: UpdateArgs): (q: Profile)
    ensures q.userId == p.userId && q.username == p.username && q.sectionsOrder == p.sectionsOrder
    ensures q.name == args.name && q.experience == args.experience && q.education == args.education
    ensures q.skills == args.skills && q.isPublic == args.isPublic
    ensures q.title == args.title && q.location == args.location && q.bio == args.bio
    ensures q.email == args.email && q.website == args.website && q.github == args.github
    ensures q.linkedin == args.linkedin && q.twitter == args.twitter
  {
    p.(name := args.name, title := args.title, location := args.location, bio := args.bio,
       email := args.email, website := args.website, github := args.github,
       linkedin := args.linkedin, twitter := args.twitter, experience := args.experience,
       education := args.education, skills := args.skills, isPublic := args.isPublic)
  }

  /** `updateProfile`: the caller's own row is patched; every other row is
      left alone. */
  function UpdateProfile(rows: Store, auth: Option<UserId>, args: UpdateArgs): (r: Result<(Store, ProfileId), StoreError>)
    ensures auth.None? ==> r == Err(NotAuthenticated)
    ensures auth.Some? && (forall i :: 0 <= i < |rows| ==> rows[i].userId != auth.value) ==> r == Err(ProfileNotFound)
    ensures r.Ok? ==>
      var (rows', id) := r.value;
      && auth.Some? && id < |rows| && rows[id].userId == auth.value
      && |rows'| == |rows| && rows'[id] == Patch(rows[id], args)
      && forall j :: 0 <= j < |rows| && j != id ==> rows'[j] == rows[j]
    ensures Valid(rows) && auth.Some? && (exists i :: 0 <= i < |rows| && rows[i].userId == auth.value) ==> r.Ok?
  {
    if auth.None? then Err(NotAuthenticated)
    else
      match Lookup(rows, ByUser(auth.value))
      case Err(e) => Err(e)
      case Ok(None) => Err(ProfileNotFound)
      case Ok(Some(id)) => Ok((rows[id := Patch(rows[id], args)], id))
  }

  /** An update never changes a username or an owner, so it keeps both
      invariants. */
  lemma UpdatePreservesValid(rows: Store, auth: Option<UserId>, args: UpdateArgs)
    requires Valid(rows)
    ensures UpdateProfile(rows, auth, args).Ok? ==> Valid(UpdateProfile(rows, auth, args).value.0)
  {
    var r := UpdateProfile(rows, auth, args);
    if r.Ok? {
      var (rows', id) := r.value;
      forall i, j | 0 <= i < j < |rows'|
        ensures rows'[i].username != rows'[j].username && rows'[i].userId != rows'[j].userId
      {
        assert rows'[i].username == rows[i].username && rows'[i].userId == rows[i].userId;
        assert rows'[j].username == rows[j].username && rows'[j].userId == rows[j].userId;
      }
    }
  }

  /** `getMyProfile`: no user, no profile. */
  function GetMyProfile(rows: Store, auth: Option<UserId>): (r: Result<Option<Profile>, StoreError>)
    ensures auth.None? ==> r == Ok(None)
    ensures r.Ok? && r.value.Some? ==> auth.Some? && r.value.value in rows && r.value.value.userId == auth.value
    ensures auth.Some? ==> (r == Ok(None) <==> forall i :: 0 <= i < |rows| ==> rows[i].userId != auth.value)
  {
    if auth.None? then Ok(None)
    else
      match Lookup(rows, ByUser(auth.value))
      case Err(e) => Err(e)
      case Ok(None) => Ok(None)
      case Ok(Some(id)) => Ok(Some(rows[id]))
  }

  /** `getProfileByUsername`: a private profile reads as absent. */
  function GetProfileByUsername(rows: Store, username: string): (r: Result<Option<Profile>, StoreError>)
    ensures r.Ok? && r.value.Some? ==> r.value.value in rows && r.value.value.username == username && r.value.value.isPublic
    ensures Valid(rows) ==>
      (r == Ok(None) <==> forall i :: 0 <= i < |rows| && rows[i].username == username ==> !rows[i].isPublic)
  {
    match Lookup(rows, ByUsername(username))
    case Err(e) => Err(e)
    case Ok(None) => Ok(None)
    case Ok(Some(id)) => if rows[id].isPublic then Ok(Some(rows[id])) else Ok(None)
  }

  /** `checkUsernameAvailable`: true exactly when no row has that
      username. */
  function CheckUsernameAvailable(rows: Store, username: string): (r: Result<bool, StoreError>)
    ensures r.Ok? ==> (r.value <==> forall i :: 0 <= i < |rows| ==> rows[i].username != username)
    ensures Valid(rows) ==> r.Ok?
  {
    match Lookup(rows, ByUsername(username))
    case Err(e) => Err(e)
    case Ok(found) => Ok(found.None?)
  }

  /** The empty table is valid, so every store reached through the two
      mutations is. */
  lemma EmptyStoreValid()
    ensures Valid([])
  {
  }

  /** Reported availability is what creation relies on: if the check says
      the name is free and the caller owns no profile, creating it
      succeeds in the same state. */
  lemma AvailableThenCreateSucceeds(rows: Store, userId: UserId, args: CreateArgs)
    requires CheckUsernameAvailable(rows, args.username) == Ok(true)
    requires forall i :: 0 <= i < |rows| ==> rows[i].userId != userId
    ensures CreateProfile(rows, Some(userId), args).Ok?
  {
  }

  /** Two users claiming the same name one after the other: the second
      create is refused with "Username already taken", whatever the first
      check said. */
  lemma SecondClaimIsRefused(rows: Store, first: UserId, second: UserId, a: CreateArgs, b: CreateArgs)
    requires Valid(rows)
    requires a.username == b.username
    requires CreateProfile(rows, Some(first), a).Ok?
    ensures var rows' := CreateProfile(rows, Some(first), a).value.0;
      CreateProfile(rows', Some(second), b) == Err(UsernameTaken)
  {
    var rows' := CreateProfile(rows, Some(first), a).value.0;
    CreatePreservesValid(rows, Some(first), a);
    assert rows'[|rows|].username == b.username;
  }

  /** A new user's profile is private until its owner publishes it: right
      after creation the public lookup does not find it. */
  lemma NewProfileIsPrivate(rows: Store, userId: UserId, args: CreateArgs)
    requires Valid(rows)
    requires CreateProfile(rows, Some(userId), args).Ok?
    ensures GetProfileByUsername(CreateProfile(rows, Some(userId), args).value.0, args.username) == Ok(None)
  {
    CreatePreservesValid(rows, Some(userId), args);
  }
}

=== FILE: text.dfy ===
/** String helpers with the meaning JavaScript's built-in string methods give
    them: `startsWith`, `trim`, `split` with a one-character separator,
    `join`, and the decimal conversions between numbers and digit strings. */
module Text {

  /** `s.startsWith(prefix)`. */
  predicate StartsWith(s: string, prefix: string) {
    |prefix| <= |s| && s[..|prefix|] == prefix
  }

  /** JavaScript's `length`: UTF-16 code units, one for a character of the
      Basic Multilingual Plane and two (a surrogate pair) for any other. */
  function Utf16Length(s: string): (n: nat)
    ensures |s| <= n <= 2 * |s|
    ensures (forall i :: 0 <= i < |s| ==> (s[i] as int) < 0x1_0000) ==> n == |s|
  {
    if s == [] then 0
    else (if (s[0] as int) < 0x1_0000 then 1 else 2) + Utf16Length(s[1..])
  }

  /** `s.slice(prefix.length)` once `s` is known to start with `prefix`;
      the text is returned whole otherwise. */
  function DropPrefix(s: string, prefix: string): (r: string)
    ensures StartsWith(s, prefix) ==> prefix + r == s
    ensures !StartsWith(s, prefix) ==> r == s
  {
    if StartsWith(s, prefix) then s[|prefix|..] else s
  }

  /** Dropping a prefix undoes prepending it. */
  lemma DropPrefixOfPrefixed(prefix: string, rest: string)
    ensures DropPrefix(prefix + rest, prefix) == rest
  {
    assert (prefix + rest)[..|prefix|] == prefix;
  }

  /** A shared first character does not change a prefix test. */
  lemma StartsWithCons(c: char, s: string, prefix: string)
    ensures StartsWith([c] + s, [c] + prefix) <==> StartsWith(s, prefix)
  {
    if |prefix| <= |s| {
      assert ([c] + s)[..|prefix| + 1] == [c] + s[..|prefix|];
      assert ([c] + prefix)[1..] == prefix;
    }
  }

  /** The code points `String.prototype.trim` removes: the ECMAScript
      WhiteSpace set (TAB, VT, FF, ZWNBSP and every space separator) and the
      LineTerminator set (LF, CR, LS, PS). */
  predicate IsTrimmable(c: char) {
    var n := c as int;
    n == 0x09 || n == 0x0A || n == 0x0B || n == 0x0C || n == 0x0D
    || n == 0x20 || n == 0xA0 || n == 0x1680 || (0x2000 <= n <= 0x200A)
    || n == 0x2028 || n == 0x2029 || n == 0x202F || n == 0x205F
    || n == 0x3000 || n == 0xFEFF
  }

  /** The code points a regular-expression `.` does not match. */
  predicate IsLineTerminator(c: char) {
    var n := c as int;
    n == 0x0A || n == 0x0D || n == 0x2028 || n == 0x2029
  }

  /** Neither end of `s` is a trimmable code point. */
  predicate IsTrimmed(s: string) {
    s == [] || (!IsTrimmable(s[0]) && !IsTrimmable(s[|s| - 1]))
  }

  /** `s.trimStart()`: a suffix of `s`, everything cut off was trimmable. */
  function TrimStart(s: string): (r: string)
    ensures |r| <= |s| && r == s[|s| - |r|..]
    ensures forall i :: 0 <= i < |s| - |r| ==> IsTrimmable(s[i])
    ensures r == [] || !IsTrimmable(r[0])
  {
    if s != [] && IsTrimmable(s[0]) then TrimStart(s[1..]) else s
  }

  /** `s.trimEnd()`: a prefix of `s`, everything cut off was trimmable. */
  function TrimEnd(s: string): (r: string)
    ensures |r| <= |s| && r == s[..|r|]
    ensures forall i :: |r| <= i < |s| ==> IsTrimmable(s[i])
    ensures r == [] || !IsTrimmable(r[|r| - 1])
  {
    if s != [] && IsTrimmable(s[|s| - 1]) then TrimEnd(s[..|s| - 1]) else s
  }

  /** `s.trim()`: what is left after cutting trimmable code points from
      both ends (where it sits in `s` is `TrimCutsOnlyTrimmable`). */
  function Trim(s: string): (r: string)
    ensures IsTrimmed(r)
    ensures |r| <= |s|
    ensures IsTrimmed(s) ==> r == s
  {
    TrimEndsClean(s);
    TrimLeavesTrimmed(s);
    TrimEnd(TrimStart(s))
  }

  /** The trimmed text is a factor `s[lo..lo + |r|]` of `s`, and only
      trimmable code points were cut on either side. */
  lemma TrimCutsOnlyTrimmable(s: string)
    ensures exists lo :: TrimmedAt(s, lo, Trim(s))
  {
    TrimFactor(s);
    assert TrimmedAt(s, |s| - |TrimStart(s)|, Trim(s));
  }

  /** Cutting the start and then the end leaves a factor of `s` with only
      trimmable code points around it. */
  lemma TrimFactor(s: string)
    ensures TrimmedAt(s, |s| - |TrimStart(s)|, TrimEnd(TrimStart(s)))
  {
    var a := TrimStart(s);
    var r := TrimEnd(a);
    var lo := |s| - |a|;
    assert r == s[lo..lo + |r|];
    assert forall k :: 0 <= k < lo ==> IsTrimmable(s[k]);
    forall k | lo + |r| <= k < |s|
      ensures IsTrimmable(s[k])
    {
      assert s[k] == a[k - lo];
    }
    assert TrimmedAt(s, lo, r);
  }

  /** Neither end of what is left is trimmable. */
  lemma TrimEndsClean(s: string)
    ensures IsTrimmed(TrimEnd(TrimStart(s)))
  {
    var a := TrimStart(s);
    var r := TrimEnd(a);
    if r != [] {
      assert r[0] == a[0];
    }
  }

  /** A string with clean ends is left alone. */
  lemma TrimLeavesTrimmed(s: string)
    ensures IsTrimmed(s) ==> TrimEnd(TrimStart(s)) == s
  {
    if IsTrimmed(s) && s != [] {
      assert TrimStart(s) == s;
    }
  }

  /** `r` sits at offset `lo` in `s`, and only trimmable code points lie
      around it. */
  predicate TrimmedAt(s: string, lo: int, r: string) {
    0 <= lo && lo + |r| <= |s| && r == s[lo..lo + |r|]
    && (forall k :: 0 <= k < lo ==> IsTrimmable(s[k]))
    && (forall k :: lo + |r| <= k < |s| ==> IsTrimmable(s[k]))
  }

  /** Trimming twice is trimming once. */
  lemma TrimIdempotent(s: string)
    ensures Trim(Trim(s)) == Trim(s)
  {
  }

  /** `parts.join(sep)` for a one-character separator. */
  function Join(parts: seq<string>, sep: char): string {
    if |parts| == 0 then ""
    else if |parts| == 1 then parts[0]
    else parts[0] + [sep] + Join(parts[1..], sep)
  }

  /** `s.split(sep)` for a one-character separator: at least one part, no
      part contains the separator, and joining the parts gives `s` back. */
  function Split(s: string, sep: char): (parts: seq<string>)
    ensures |parts| >= 1
    ensures forall k :: 0 <= k < |parts| ==> sep !in parts[k]
    ensures Join(parts, sep) == s
  {
    if s == [] then [""]
    else
      var rest := Split(s[1..], sep);
      if s[0] == sep then
        assert Join([""] + rest, sep) == [sep] + Join(rest, sep) by {
          assert ([""] + rest)[1..] == rest;
        }
        [""] + rest
      else
        var parts := [[s[0]] + rest[0]] + rest[1..];
        assert Join(parts, sep) == [s[0]] + Join(rest, sep) by {
          if |rest| > 1 {
            assert parts[1..] == rest[1..];
          }
        }
        parts
  }

  /** A string without the separator splits into itself. */
  lemma {:induction false} SplitWithoutSeparator(a: string, sep: char)
    requires sep !in a
    ensures Split(a, sep) == [a]
  {
    if a != [] {
      SplitWithoutSeparator(a[1..], sep);
    }
  }

  /** Splitting at the first separator peels off the text before it. */
  lemma {:induction false} SplitAtFirst(a: string, sep: char, b: string)
    requires sep !in a
    ensures Split(a + [sep] + b, sep) == [a] + Split(b, sep)
  {
    var s := a + [sep] + b;
    if a == [] {
      assert s[1..] == b;
    } else {
      assert s[1..] == a[1..] + [sep] + b;
      SplitAtFirst(a[1..], sep, b);
      assert [a[0]] + a[1..] == a;
    }
  }

  /** Split undoes Join when no part contains the separator. */
  lemma {:induction false} SplitJoin(parts: seq<string>, sep: char)
    requires |parts| >= 1
    requires forall k :: 0 <= k < |parts| ==> sep !in parts[k]
    ensures Split(Join(parts, sep), sep) == parts
  {
    if |parts| == 1 {
      SplitWithoutSeparator(parts[0], sep);
    } else {
      SplitJoin(parts[1..], sep);
      SplitAtFirst(parts[0], sep, Join(parts[1..], sep));
    }
  }

  predicate IsDigit(c: char) {
    '0' <= c <= '9'
  }

  predicate AllDigits(s: string) {
    forall i :: 0 <= i < |s| ==> IsDigit(s[i])
  }

  function DigitChar(d: nat): (c: char)
    requires d < 10
    ensures IsDigit(c) && c as int - '0' as int == d
  {
    (d + '0' as int) as char
  }

  /** `String(n)` for a natural number: its decimal digits, no leading zero. */
  function NatToString(n: nat): (s: string)
    ensures |s| >= 1 && AllDigits(s)
    ensures |s| > 1 ==> s[0] != '0'
  {
    if n < 10 then [DigitChar(n)] else NatToString(n / 10) + [DigitChar(n % 10)]
  }

  /** `String(i)` for an integer. */
  function IntToString(i: int): string {
    if i < 0 then "-" + NatToString(-i) else NatToString(i)
  }

  /** The value of a string of decimal digits (leading zeros allowed). */
  function DigitsValue(s: string): nat
    requires AllDigits(s)
  {
    if s == [] then 0
    else DigitsValue(s[..|s| - 1]) * 10 + (s[|s| - 1] as int - '0' as int)
  }

  /** Reading the decimal form of `n` gives `n` back. */
  lemma {:induction false} DigitsValueOfNatToString(n: nat)
    ensures DigitsValue(NatToString(n)) == n
  {
    if n >= 10 {
      var s := NatToString(n);
      assert s[..|s| - 1] == NatToString(n / 10);
      DigitsValueOfNatToString(n / 10);
    }
  }
}

=== FILE: wrappers.dfy ===
/** Optional values and tagged failures, used in place of JavaScript's
    `undefined`/`null` and thrown errors. */
module Wrappers {

  /** An optional value: `None` stands for `undefined` or `null`. */
  datatype Option<+T> = None | Some(value: T) {

    /** The value, or `default` when absent (JavaScript's `x ?? default`). */
    function GetOr(default: T): T {
      match this
      case Some(v) => v
      case None => default
    }
  }

  /** Either a value or the error a handler would have thrown. */
  datatype Result<+T, +E> = Ok(value: T) | Err(error: E)
}
